=== FILE: README.md ===
# Milvus Java SDK parameter conversion, modelled in Dafny

This project models the request-conversion core of the Milvus Java client:

- `ParamUtils.CheckNullEmptyString`, the null/blank check every parameter builder uses;
- `ParamUtils.ConvertInsertParam`, which turns user columns into an insert request in schema order;
- `ParamUtils.genFieldData`, which encodes one column (float vectors, binary vectors, the scalar types);
- `ParamUtils.ConvertSearchParam`, which serialises target vectors into a placeholder group and lays out the search parameters;
- the two `ParamUtils.ConvertField` overloads between the wire field schema and the client field type;
- `GetIndexBuildProgressParam` with its builder and `toString`.

The model is functional. Java objects handed to the conversions are values of `JavaRuntime.Value`. Exceptions are the `Failure` side of a `Result`. Builders are values that each setter returns updated. Floats and doubles are raw IEEE bit patterns, since nothing here computes with them.

Modules, by file:

| file | module | models |
|---|---|---|
| wrappers.dfy | `Wrappers` | `Option`, `Result`, `Outcome` |
| java_runtime.dfy | `JavaRuntime` | Java values and exceptions, `Character.isWhitespace`, `String.valueOf(long)` |
| grpc_messages.dfy | `Grpc` | the protocol records the conversions produce |
| params.dfy | `Params` | the client's `InsertParam`, `SearchParam`, `FieldType` |
| string_check.dfy | `StringCheck` | `CheckNullEmptyString` |
| seqs.dfy | `Seqs` | concatenation and chunking of sequences |
| field_encoding.dfy | `FieldEncoding`, `FieldEncodingFacts` | `genFieldData` and what it promises |
| insert_conversion.dfy | `InsertConversion`, `InsertFacts` | `ConvertInsertParam` and its error order |
| schema_conversion.dfy | `SchemaConversion` | both `ConvertField` overloads and their round trips |
| search_conversion.dfy | `SearchConversion` | `ConvertSearchParam` |
| index_build_progress.dfy | `IndexBuildProgress` | `GetIndexBuildProgressParam` |

## Model

| member | source | states |
|---|---|---|
| JavaRuntime.IsBlank | src/main/java/io/milvus/param/ParamUtils.java:30 | a string is blank exactly when every character is Java whitespace; the empty string is blank |
| JavaRuntime.DecimalString | src/main/java/io/milvus/param/ParamUtils.java:152 | `String.valueOf` on an integer is a minus sign exactly for a negative number followed by decimal digits with no leading zero and no "-0"; `DecimalRoundTrip` reads the number back, so the text is the only canonical one |
| JavaRuntime.DecimalRoundTrip | src/main/java/io/milvus/param/ParamUtils.java:152 | the decimal text written for `topK` and `roundDecimal` reads back as the same integer, sign included |
| StringCheck.CheckNullEmptyString | src/main/java/io/milvus/param/ParamUtils.java:29-33 | fails exactly when the target is null or all whitespace, and then with "`name` cannot be null or empty" |
| StringCheck.BlankExamples | src/main/java/io/milvus/param/ParamUtils.java:30 | tabs, newlines and the ideographic space count as blank; a no-break space and a string with a letter do not |
| InsertConversion.FindFrom | src/main/java/io/milvus/param/ParamUtils.java:60-61 | finds the first column at or after `start` with the given name, or reports that none exists |
| InsertConversion.Column | src/main/java/io/milvus/param/ParamUtils.java:60-73 | the column matched for a schema field is absent exactly when no column has its name, and otherwise has that name |
| InsertConversion.ConvertSchemaField | src/main/java/io/milvus/param/ParamUtils.java:59-80 | one pass of the outer loop succeeds exactly when the field is accepted, yielding no column exactly for an auto-ID field and otherwise the encoding of its first matching column; a supplied auto-ID field, a type mismatch and a missing field fail with their messages, in that order, and an encoding failure is passed on |
| InsertConversion.NonAutoFields | src/main/java/io/milvus/param/ParamUtils.java:62-80 | the fields the caller must supply are schema fields that are not auto-ID |
| InsertConversion.NonAutoFieldsInOrder | src/main/java/io/milvus/param/ParamUtils.java:58-81 | those fields are exactly the non-auto-ID schema fields, each once, in declared order (a strictly increasing choice of positions covering every non-auto-ID field) |
| InsertConversion.ConvertFieldsData | src/main/java/io/milvus/param/ParamUtils.java:58-81 | succeeds exactly when every schema field is accepted; the output has one column per non-auto-ID field, in schema order, each the encoding of that field's first matching column |
| InsertConversion.ConvertInsertParam | src/main/java/io/milvus/param/ParamUtils.java:42-85 | same success condition; the request carries the collection name, partition name, row count and an Insert message base, with columns in schema order |
| InsertFacts.ColumnIsFirst | src/main/java/io/milvus/param/ParamUtils.java:60-73 | the column used for a schema field is the first one with its name |
| InsertFacts.ColumnAfterInsert | src/main/java/io/milvus/param/ParamUtils.java:60-73 | adding a column changes no lookup unless it is the first with its name |
| InsertFacts.ConvertDependsOnlyOnFirstColumns | src/main/java/io/milvus/param/ParamUtils.java:58-81 | two column lists that agree on the first column for every schema name convert alike |
| InsertFacts.InsertIgnoresUnknownColumn | src/main/java/io/milvus/param/ParamUtils.java:58-81 | a column whose name is in no schema field, inserted anywhere, leaves the result unchanged |
| InsertFacts.InsertIgnoresLaterDuplicate | src/main/java/io/milvus/param/ParamUtils.java:60-73 | a second column with an already supplied name is ignored, whatever its type or values |
| InsertFacts.InsertReportsFirstRejected | src/main/java/io/milvus/param/ParamUtils.java:58-81 | the conversion fails with the error of the first rejected schema field |
| InsertFacts.InsertRejectsSuppliedAutoId | src/main/java/io/milvus/param/ParamUtils.java:62-65 | a supplied column for an auto-ID field fails with the "is auto generated" message |
| InsertFacts.InsertRejectsTypeMismatch | src/main/java/io/milvus/param/ParamUtils.java:66-69 | a first matching column whose type differs from the schema fails with the "data type doesn't match" message |
| InsertFacts.InsertRejectsMissingColumn | src/main/java/io/milvus/param/ParamUtils.java:77-80 | a non-auto-ID field with no column fails with the "is not provided" message |
| InsertFacts.InsertSkipsAbsentAutoId | src/main/java/io/milvus/param/ParamUtils.java:77 | with an auto-ID primary key left out and a two-row float vector column, the request holds only the vector column, dimension 2 |
| FieldEncoding.CastAll | src/main/java/io/milvus/param/ParamUtils.java:260 | a stream of casts succeeds exactly when every element casts, and keeps length and order |
| FieldEncoding.AsInt | src/main/java/io/milvus/param/ParamUtils.java:267 | an element of an Int8, Int16 or Int32 column is taken when it is an Integer or a Short, the Short widened; a Byte, like any other class, is refused |
| FieldEncoding.GatherFloatRows | src/main/java/io/milvus/param/ParamUtils.java:219-228 | succeeds exactly when every row is a list, with the "must be List<Float>" message otherwise; the result is the rows laid end to end |
| FieldEncoding.EncodeFloatVector | src/main/java/io/milvus/param/ParamUtils.java:218-233 | succeeds exactly when there is a row, every row is a list and every item is a Float; the floats are the items in order; the dimension is the integer quotient of float count by row count; no rows is a division by zero |
| FieldEncoding.PutRows | src/main/java/io/milvus/param/ParamUtils.java:238-247 | the buffer `put`s succeed exactly when every row is a byte buffer and all backing arrays together fit; what is written is their concatenation |
| FieldEncoding.EncodeBinaryVector | src/main/java/io/milvus/param/ParamUtils.java:234-252 | succeeds exactly when there is a row, every row is a byte buffer and the arrays fit in position(first row) × rows bytes; the bytes are the arrays then zeros to that size; the dimension is 8 × position(first row); no rows is a null pointer |
| FieldEncoding.EncodeScalars | src/main/java/io/milvus/param/ParamUtils.java:255-291 | succeeds exactly when every element has the column's element class (Short widened for the integer types); the stored values are the elements in order, in the array that belongs to the type |
| FieldEncoding.GenFieldData | src/main/java/io/milvus/param/ParamUtils.java:212-296 | null values fail with the null-object message, None and UNRECOGNIZED with "Cannot support this dataType"; a result carries the field name and type, and its payload is the one that belongs to the type; a float or binary vector column succeeds exactly when its encoder does and carries the encoder's vectors |
| FieldEncodingFacts.FloatRowsAccepted | src/main/java/io/milvus/param/ParamUtils.java:219-231 | rows that are equal-length lists of Floats are always encoded |
| FieldEncodingFacts.FloatVectorShape | src/main/java/io/milvus/param/ParamUtils.java:230-232 | for n rows of d floats the dimension is d and there are n × d floats |
| FieldEncodingFacts.FloatVectorRowMajor | src/main/java/io/milvus/param/ParamUtils.java:219-231 | float i × d + j of the column is item j of row i |
| FieldEncodingFacts.FloatVectorRowsRecovered | src/main/java/io/milvus/param/ParamUtils.java:230-232 | cutting the floats into pieces of the reported dimension gives back the rows |
| FieldEncodingFacts.BinaryVectorLayout | src/main/java/io/milvus/param/ParamUtils.java:234-252 | for n buffers each with d bytes up to their position, the bytes are the arrays end to end, the dimension is 8 × d, and cutting by d gives back the rows |
| FieldEncodingFacts.BinaryRowLengthsUnchecked | src/main/java/io/milvus/param/ParamUtils.java:241-245 | row lengths are not compared, only their total against position(first row) × rows: two rows of 2 and 1 bytes after a position of 2 leave one zero byte, two rows of 1 and 3 bytes overflow, and rows of 2, 1 and 3 bytes fill the 6-byte buffer exactly |
| FieldEncodingFacts.ScalarRoundTrip | src/main/java/io/milvus/param/ParamUtils.java:255-291 | a scalar column whose elements all fit is encoded, and its stored values read back as the elements |
| FieldEncodingFacts.ByteNotWidened | src/main/java/io/milvus/param/ParamUtils.java:267 | a Byte element makes an Int8, Int16 or Int32 column fail, since only a Short is widened |
| FieldEncodingFacts.ScalarRejectsForeignElement | src/main/java/io/milvus/param/ParamUtils.java:255-291 | one element of the wrong class makes the whole column fail |
| SchemaConversion.PairsToMap | src/main/java/io/milvus/param/ParamUtils.java:312-313 | the map's keys are exactly the pairs' keys |
| SchemaConversion.LastPairWins | src/main/java/io/milvus/param/ParamUtils.java:313 | when a key repeats, its last pair's value is kept |
| SchemaConversion.PairsToMapDistinct | src/main/java/io/milvus/param/ParamUtils.java:312-313 | with distinct keys every pair's value is kept |
| SchemaConversion.FromSchema | src/main/java/io/milvus/param/ParamUtils.java:304-316 | the client field type's parameter keys are exactly the wire schema's keys |
| SchemaConversion.ToSchema | src/main/java/io/milvus/param/ParamUtils.java:324-336 | the wire schema lists every type parameter exactly once, each with its value, in the map's iteration order |
| SchemaConversion.ClientRoundTrip | src/main/java/io/milvus/param/ParamUtils.java:304-336 | a client field type sent to the wire and read back is unchanged, whatever the iteration order |
| SchemaConversion.WireRoundTrip | src/main/java/io/milvus/param/ParamUtils.java:304-336 | a wire schema with distinct parameter keys, read and sent back in the same order, is unchanged in name, description, primary-key and auto-ID flags, data type and type parameters |
| SearchConversion.FloatBytes | src/main/java/io/milvus/param/ParamUtils.java:111-113 | `putFloat` in little-endian order writes four bytes that read back, least significant first, as the float's bits |
| SearchConversion.SerializeFloats | src/main/java/io/milvus/param/ParamUtils.java:111-113 | a list of n floats takes 4 × n bytes |
| SearchConversion.SerializeRoundTrip | src/main/java/io/milvus/param/ParamUtils.java:111-115 | the serialised bytes of a float list read back as the list |
| SearchConversion.EncodeTarget | src/main/java/io/milvus/param/ParamUtils.java:107-127 | a target succeeds exactly when it is a list of Floats or a byte buffer; the bytes carry it; other objects fail with the illegal-vector message |
| SearchConversion.EncodeTargets | src/main/java/io/milvus/param/ParamUtils.java:104-128 | succeeds exactly when every target is legal; one value per target, in order; the kind is the last target's |
| SearchConversion.SearchParams | src/main/java/io/milvus/param/ParamUtils.java:143-171 | keys anns_field, topk, metric_type, round_decimal in this order, then params only when non-null and non-empty; the numbers are the canonical `String.valueOf` text of `topK` and `roundDecimal` and read back as them |
| SearchConversion.ConvertSearchParam | src/main/java/io/milvus/param/ParamUtils.java:94-187 | succeeds exactly when every target is legal; copies names, output fields and timestamps; one placeholder tagged "$0" carrying every target; expression language always; the filter set only when non-null and non-empty |
| SearchConversion.TargetsReportFirstIllegal | src/main/java/io/milvus/param/ParamUtils.java:104-128 | the loop fails with the first illegal target's error |
| SearchConversion.SearchReportsFirstIllegal | src/main/java/io/milvus/param/ParamUtils.java:124-127 | a search fails on its first illegal target: a list holding a non-Float is a bad element, any other object the illegal-vector message |
| SearchConversion.MixedTargetsTakeLastKind | src/main/java/io/milvus/param/ParamUtils.java:107-119 | float and binary targets may be mixed; the placeholder takes the last one's kind |
| IndexBuildProgress.NewBuilder | src/main/java/io/milvus/param/index/GetIndexBuildProgressParam.java:39-50 | a new builder has no collection name |
| IndexBuildProgress.WithCollectionName | src/main/java/io/milvus/param/index/GetIndexBuildProgressParam.java:58-61 | a null name is refused; any other name, blank or not, replaces the previous one |
| IndexBuildProgress.Build | src/main/java/io/milvus/param/index/GetIndexBuildProgressParam.java:68-72 | fails exactly when the name is null or blank, with "Collection name cannot be null or empty"; otherwise the parameter holds the builder's name |
| IndexBuildProgress.ToString | src/main/java/io/milvus/param/index/GetIndexBuildProgressParam.java:80-85 | the text starts with "GetIndexBuildProgressParam{collectionName='" and ends with "'}" around the name |
| IndexBuildProgress.ToStringRoundTrip | src/main/java/io/milvus/param/index/GetIndexBuildProgressParam.java:80-85 | the name can be read back out of the text, so different parameters print differently |
| IndexBuildProgress.LastCollectionNameWins | src/main/java/io/milvus/param/index/GetIndexBuildProgressParam.java:58-72 | after several non-null names the builder holds the last, and `build()` accepts exactly when it is not blank |

## Inputs the code accepts without checking

The model keeps each of these as the code has it:

- Float vectors (src/main/java/io/milvus/param/ParamUtils.java:230): rows of unequal length are not refused. The dimension is the integer quotient of the float count by the row count (`FieldEncodingFacts.FloatVectorShape` covers the equal-length case).
- Binary vectors (src/main/java/io/milvus/param/ParamUtils.java:241-245): the buffer is sized as position(first row) × rows bytes, and every row's whole backing array is written into it end to end. Row lengths are never compared with each other: if the arrays total fewer bytes than the buffer, the rest stays zero, and the `put` that would pass the capacity overflows (`FieldEncodingFacts.BinaryRowLengthsUnchecked`).
- Insert columns (src/main/java/io/milvus/param/ParamUtils.java:60-73): the first column with a schema field's name is used and later ones are ignored (`InsertFacts.InsertIgnoresLaterDuplicate`). Columns whose names match no schema field are ignored too (`InsertFacts.InsertIgnoresUnknownColumn`).
- Integer columns (src/main/java/io/milvus/param/ParamUtils.java:267): only a Short is widened, so a Byte in an Int8, Int16 or Int32 column fails (`FieldEncodingFacts.ByteNotWidened`).

## Left out

- `ParamUtils.ConvertQueryParam`: a field-by-field copy with no checks or branching, outside the modelled core.
- Protocol buffer wire encoding: the placeholder group is kept as a structured record rather than serialised to bytes with `toByteString`.
- `FieldType.Builder.build` validation, run at the end of `ConvertField(FieldSchema)`: FieldType.java is not part of this model. `FromSchema` therefore never fails.
- The `Constant` class is not part of this model. The key strings "anns_field", "topk", "metric_type", "round_decimal", "params" and the tag "$0" are the protocol's values.
- Java `int` overflow of `position × rows` and `position × 8` in the binary-vector branch: sizes are unbounded integers.
- `ByteBuffer` details beyond the backing array and a position within it, such as direct, read-only or offset buffers.
- Null collection, partition or field names, and null entries in the field or schema lists: the `@NonNull` parameters and protobuf setters throw a null-pointer exception on these, which the model's non-null strings rule out.
- IndexBuildProgress.WithCollectionName: returns a new builder value rather than the same mutable builder, so the identity of the returned builder is not modelled.
- FieldEncoding.EncodeScalars: a `ClassCastException` and a null-pointer exception from a null element are both `BadElement`, because which one the protobuf runtime raises depends on its version.
- FieldEncoding.EncodeFloatVector: a non-Float item is `BadElement` for the same reason.
- FieldEncoding.EncodeBinaryVector: a null first row is `BadElement`, although Java throws a null-pointer exception at `buf.position()` rather than at the cast; a null and a wrong class are not told apart.
- JavaRuntime.IsBlank: uses the whitespace set of current Unicode versions; U+180E, whitespace in older Java releases, is not included.
- SchemaConversion.WireRoundTrip: the wire field schema's other fields, among them the field ID the server assigns and the index parameters, are not modelled; `ConvertField(FieldSchema)` does not read them and `ConvertField(FieldType)` does not set them, so the real round trip drops them.
- SchemaConversion.ToSchema: the iteration order of the client's `HashMap` is a parameter, constrained only to list every key once.
- Floating-point arithmetic: floats and doubles are bit patterns and are never computed with.

=== FILE: field_encoding.dfy ===
/** `ParamUtils.genFieldData`: one supplied column turned into its wire
    record, by the column's declared data type. */
module FieldEncoding {
  import opened Wrappers
  import opened JavaRuntime
  import opened Grpc
  import opened Seqs

  /** Applies a per-element cast to every element in order; one rejected
      element rejects the whole list. */
  function CastAll<T>(values: seq<Value>, cast: Value -> Option<T>): (r: Option<seq<T>>)
    ensures r.Some? <==> forall i | 0 <= i < |values| :: cast(values[i]).Some?
    ensures r.Some? ==> |r.value| == |values|
    ensures r.Some? ==> forall i | 0 <= i < |values| :: r.value[i] == cast(values[i]).value
  {
    if |values| == 0 then Some([])
    else
      var head :- cast(values[0]);
      var tail :- CastAll(values[1..], cast);
      Some([head] + tail)
  }

  /** `(Long) p` */
  function AsLong(v: Value): Option<Long> {
    if v.LongVal? then Some(v.longValue) else Option.None
  }

  /** `p instanceof Short ? ((Short) p).intValue() : (Integer) p`: a Short
      is widened, anything else must be an Integer. */
  function AsInt(v: Value): (r: Option<Int>)
    ensures r.Some? <==> v.IntVal? || v.ShortVal?
    ensures v.ShortVal? ==> r == Some(v.shortValue as int)
    ensures v.ByteVal? ==> r.None?
  {
    match v
    case IntVal(x) => Some(x)
    case ShortVal(x) => Some(x)
    case _ => Option.None
  }

  /** `(Boolean) p` */
  function AsBool(v: Value): Option<bool> {
    if v.BoolVal? then Some(v.boolValue) else Option.None
  }

  /** `(Float) p` */
  function AsFloat(v: Value): Option<Float32> {
    if v.FloatVal? then Some(v.floatBits) else Option.None
  }

  /** `(Double) p` */
  function AsDouble(v: Value): Option<Float64> {
    if v.DoubleVal? then Some(v.doubleBits) else Option.None
  }

  /** `(String) p` */
  function AsString(v: Value): Option<string> {
    if v.StringVal? then Some(v.str) else Option.None
  }

  predicate IsVectorType(t: DataType) {
    t == FloatVector || t == BinaryVector
  }

  predicate IsUnsupported(t: DataType) {
    t == DataType.None || t == UNRECOGNIZED
  }

  predicate IsScalarType(t: DataType) {
    !IsVectorType(t) && !IsUnsupported(t)
  }

  /** The wire payload a column of type `t` is stored in: Int8, Int16 and
      Int32 share the 32-bit int array, String and VarChar the string array. */
  predicate StoredAs(t: DataType, p: FieldPayload) {
    match t
    case FloatVector => p.Vectors? && p.vectors.FloatVectors?
    case BinaryVector => p.Vectors? && p.vectors.BinaryVectors?
    case Int64 => p.Scalars? && p.scalars.LongData?
    case Int32 | Int16 | Int8 => p.Scalars? && p.scalars.IntData?
    case Bool => p.Scalars? && p.scalars.BoolData?
    case Float => p.Scalars? && p.scalars.FloatData?
    case Double => p.Scalars? && p.scalars.DoubleData?
    case String | VarChar => p.Scalars? && p.scalars.StringData?
    case None | UNRECOGNIZED => false
  }

  /** The Java values a column of scalar type `t` accepts. */
  predicate Fits(t: DataType, v: Value) {
    match t
    case Int64 => v.LongVal?
    case Int32 | Int16 | Int8 => v.IntVal? || v.ShortVal?
    case Bool => v.BoolVal?
    case Float => v.FloatVal?
    case Double => v.DoubleVal?
    case String | VarChar => v.StringVal?
    case _ => false
  }

  /** The value a scalar element is stored as: a Short becomes the Integer
      of the same number, everything else is kept. */
  function Widen(v: Value): Value {
    if v.ShortVal? then IntVal(v.shortValue) else v
  }

  /** Reads a scalar payload back as Java values. */
  function ScalarValues(s: ScalarField): seq<Value> {
    match s
    case LongData(xs) => seq(|xs|, i requires 0 <= i < |xs| => LongVal(xs[i]))
    case IntData(xs) => seq(|xs|, i requires 0 <= i < |xs| => IntVal(xs[i]))
    case BoolData(xs) => seq(|xs|, i requires 0 <= i < |xs| => BoolVal(xs[i]))
    case FloatData(xs) => seq(|xs|, i requires 0 <= i < |xs| => FloatVal(xs[i]))
    case DoubleData(xs) => seq(|xs|, i requires 0 <= i < |xs| => DoubleVal(xs[i]))
    case StringData(xs) => seq(|xs|, i requires 0 <= i < |xs| => StringVal(xs[i]))
  }

  /** Reads the float payload back as Java Floats. */
  function FloatValues(floats: seq<Float32>): (r: seq<Value>)
    ensures |r| == |floats|
  {
    seq(|floats|, k requires 0 <= k < |floats| => FloatVal(floats[k]))
  }

  /** The element lists of rows that are all lists. */
  function ItemsOf(rows: seq<Value>): seq<seq<Value>>
    requires forall i | 0 <= i < |rows| :: rows[i].ListVal?
  {
    seq(|rows|, i requires 0 <= i < |rows| => rows[i].items)
  }

  /** The backing arrays of rows that are all byte buffers. */
  function ArraysOf(rows: seq<Value>): seq<seq<Byte>>
    requires forall i | 0 <= i < |rows| :: rows[i].ByteBufferVal?
  {
    seq(|rows|, i requires 0 <= i < |rows| => rows[i].buffer.backing)
  }

  const FLOAT_VECTOR_ROW_MESSAGE := "The type of FloatVector must be List<Float>"

  /** The float-vector loop: every row must be a `List`, and the lists'
      elements are gathered in order. */
  function GatherFloatRows(rows: seq<Value>): (r: Result<seq<Value>, Error>)
    ensures r.Success? <==> forall i | 0 <= i < |rows| :: rows[i].ListVal?
    ensures r.Failure? ==> r.error == ParamException(FLOAT_VECTOR_ROW_MESSAGE)
    ensures r.Success? ==> r.value == Concat(ItemsOf(rows))
  {
    if |rows| == 0 then Success([])
    else if !rows[0].ListVal? then Failure(ParamException(FLOAT_VECTOR_ROW_MESSAGE))
    else
      var tail :- GatherFloatRows(rows[1..]);
      assert ItemsOf(rows[1..]) == ItemsOf(rows)[1..];
      Success(rows[0].items + tail)
  }

  /** A float-vector column: the rows' floats laid end to end, with the
      dimension taken as the integer quotient of the float count by the row
      count. A non-list row fails first, then an empty row list (the
      division by zero), then any element that is not a Float. */
  function EncodeFloatVector(rows: seq<Value>): (r: Result<VectorField, Error>)
    ensures r.Success? <==>
      && 0 < |rows|
      && (forall i | 0 <= i < |rows| :: rows[i].ListVal?)
      && (forall x | x in Concat(ItemsOf(rows)) :: x.FloatVal?)
    ensures r.Success? ==> r.value.FloatVectors?
    ensures r.Success? ==> |r.value.floats| == |Concat(ItemsOf(rows))|
    ensures r.Success? ==> r.value.dim == |r.value.floats| / |rows|
    ensures r.Success? ==> forall k | 0 <= k < |r.value.floats| ::
      Concat(ItemsOf(rows))[k] == FloatVal(r.value.floats[k])
    ensures (exists i | 0 <= i < |rows| :: !rows[i].ListVal?) ==>
      r == Failure(ParamException(FLOAT_VECTOR_ROW_MESSAGE))
    ensures |rows| == 0 ==> r == Failure(DivideByZero)
  {
    var items :- GatherFloatRows(rows);
    if |rows| == 0 then Failure(DivideByZero)
    else
      var floats :- CastAll(items, AsFloat).ToResult(BadElement);
      assert forall k | 0 <= k < |items| :: items[k] == FloatVal(floats[k]);
      Success(FloatVectors(|items| / |rows|, floats))
  }

  /** The binary-vector loop's `put`s into a buffer with `room` bytes left:
      each row must be a ByteBuffer, and its whole backing array is
      copied. */
  function PutRows(rows: seq<Value>, room: nat): (r: Result<seq<Byte>, Error>)
    ensures r.Success? <==>
      (forall i | 0 <= i < |rows| :: rows[i].ByteBufferVal?) && |Concat(ArraysOf(rows))| <= room
    ensures r.Success? ==> r.value == Concat(ArraysOf(rows))
  {
    if |rows| == 0 then Success([])
    else if !rows[0].ByteBufferVal? then Failure(BadElement)
    else if |rows[0].buffer.backing| > room then Failure(BufferOverflow)
    else
      assert (forall i | 0 <= i < |rows| :: rows[i].ByteBufferVal?) ==>
        ArraysOf(rows[1..]) == ArraysOf(rows)[1..];
      var tail :- PutRows(rows[1..], room - |rows[0].buffer.backing|);
      Success(rows[0].buffer.backing + tail)
  }

  /** A binary-vector column: a buffer of `position(first row) * rows`
      bytes receives every row's backing array in order, and whatever is
      not written stays zero; the dimension is 8 bits per byte of the first
      row. No row list leaves the buffer null, and a row that does not fit
      overflows it. */
  function EncodeBinaryVector(rows: seq<Value>): (r: Result<VectorField, Error>)
    ensures r.Success? <==>
      && 0 < |rows|
      && (forall i | 0 <= i < |rows| :: rows[i].ByteBufferVal?)
      && |Concat(ArraysOf(rows))| <= rows[0].buffer.position * |rows|
    ensures r.Success? ==> r.value.BinaryVectors?
    ensures r.Success? ==> r.value.dim == 8 * rows[0].buffer.position
    ensures r.Success? ==> |r.value.bytes| == rows[0].buffer.position * |rows|
    ensures r.Success? ==>
      r.value.bytes == Concat(ArraysOf(rows)) + Zeros(rows[0].buffer.position * |rows| - |Concat(ArraysOf(rows))|)
    ensures |rows| == 0 ==> r == Failure(NullPointer)
  {
    if |rows| == 0 then Failure(NullPointer)
    else if !rows[0].ByteBufferVal? then Failure(BadElement)
    else
      var capacity := rows[0].buffer.position * |rows|;
      var written :- PutRows(rows, capacity);
      Success(BinaryVectors(rows[0].buffer.position * 8, written + Zeros(capacity - |written|)))
  }

  const NULL_OBJECTS_MESSAGE := "Cannot generate FieldData from null object"

  function UnsupportedMessage(t: DataType): string {
    "Cannot support this dataType:" + DataTypeName(t)
  }

  /** A scalar column: every element cast to the column's element class,
      in order. */
  function EncodeScalars(t: DataType, objects: seq<Value>): (r: Result<ScalarField, Error>)
    requires IsScalarType(t)
    ensures r.Success? <==> forall i | 0 <= i < |objects| :: Fits(t, objects[i])
    ensures r.Failure? ==> r.error == BadElement
    ensures r.Success? ==> StoredAs(t, Scalars(r.value))
    ensures r.Success? ==> ScalarValues(r.value) == seq(|objects|, i requires 0 <= i < |objects| => Widen(objects[i]))
  {
    match t
    case Int64 =>
      var xs :- CastAll(objects, AsLong).ToResult(BadElement);
      Success(LongData(xs))
    case Int32 | Int16 | Int8 =>
      var xs :- CastAll(objects, AsInt).ToResult(BadElement);
      Success(IntData(xs))
    case Bool =>
      var xs :- CastAll(objects, AsBool).ToResult(BadElement);
      Success(BoolData(xs))
    case Float =>
      var xs :- CastAll(objects, AsFloat).ToResult(BadElement);
      Success(FloatData(xs))
    case Double =>
      var xs :- CastAll(objects, AsDouble).ToResult(BadElement);
      Success(DoubleData(xs))
    case String | VarChar =>
      var xs :- CastAll(objects, AsString).ToResult(BadElement);
      Success(StringData(xs))
  }

  /** `genFieldData(fieldName, dataType, objects)`. */
  function GenFieldData(fieldName: string, dataType: DataType, objects: Option<seq<Value>>): (r: Result<FieldData, Error>)
    ensures objects.None? ==> r == Failure(ParamException(NULL_OBJECTS_MESSAGE))
    ensures objects.Some? && IsUnsupported(dataType) ==>
      r == Failure(ParamException("Cannot support this dataType:" + DataTypeName(dataType)))
    ensures r.Success? ==> r.value.fieldName == fieldName && r.value.dataType == dataType
    ensures r.Success? ==> StoredAs(dataType, r.value.payload)
    ensures objects.Some? && dataType == FloatVector ==>
      && (r.Success? <==> EncodeFloatVector(objects.value).Success?)
      && (r.Success? ==> r.value.payload == Vectors(EncodeFloatVector(objects.value).value))
    ensures objects.Some? && dataType == BinaryVector ==>
      && (r.Success? <==> EncodeBinaryVector(objects.value).Success?)
      && (r.Success? ==> r.value.payload == Vectors(EncodeBinaryVector(objects.value).value))
  {
    if objects.None? then Failure(ParamException(NULL_OBJECTS_MESSAGE))
    else if dataType == FloatVector then
      var v :- EncodeFloatVector(objects.value);
      Success(FieldData(fieldName, FloatVector, Vectors(v)))
    else if dataType == BinaryVector then
      var v :- EncodeBinaryVector(objects.value);
      Success(FieldData(fieldName, BinaryVector, Vectors(v)))
    else if IsUnsupported(dataType) then
      Failure(ParamException(UnsupportedMessage(dataType)))
    else
      var s :- EncodeScalars(dataType, objects.value);
      Success(FieldData(fieldName, dataType, Scalars(s)))
  }
}

/** What `genFieldData` promises of well-formed columns, and the edges it
    leaves open. */
module FieldEncodingFacts {
  import opened Wrappers
  import opened JavaRuntime
  import opened Grpc
  import opened Seqs
  import opened FieldEncoding

  /** Rows given as lists of Floats are gathered and cast without error. */
  lemma FloatRowsAccepted(rows: seq<Value>, d: nat)
    requires 0 < |rows|
    requires forall i | 0 <= i < |rows| :: rows[i].ListVal? && |rows[i].items| == d
    requires forall i, j | 0 <= i < |rows| && 0 <= j < d :: rows[i].items[j].FloatVal?
    ensures Uniform(ItemsOf(rows), d)
    ensures EncodeFloatVector(rows).Success?
  {
    var xss := ItemsOf(rows);
    forall x: Value | x in Concat(xss)
      ensures x.FloatVal?
    {
      ConcatMember(xss, x);
    }
  }

  /** Rows of `d` Floats each: the dimension is `d` and the payload holds
      `rows * d` floats. */
  lemma FloatVectorShape(rows: seq<Value>, d: nat)
    requires 0 < |rows|
    requires forall i | 0 <= i < |rows| :: rows[i].ListVal? && |rows[i].items| == d
    requires forall i, j | 0 <= i < |rows| && 0 <= j < d :: rows[i].items[j].FloatVal?
    ensures var r := EncodeFloatVector(rows);
      && r.Success? && r.value.FloatVectors?
      && r.value.dim == d
      && |r.value.floats| == |rows| * d
  {
    FloatRowsAccepted(rows, d);
    ConcatLength(ItemsOf(rows), d);
    QuotientOfProduct(|rows|, d);
  }

  /** Rows of `d` Floats each are laid out row-major: float `j` of row `i`
      sits at `i * d + j` of the payload. */
  lemma FloatVectorRowMajor(rows: seq<Value>, d: nat)
    requires 0 < |rows|
    requires forall i | 0 <= i < |rows| :: rows[i].ListVal? && |rows[i].items| == d
    requires forall i, j | 0 <= i < |rows| && 0 <= j < d :: rows[i].items[j].FloatVal?
    ensures var r := EncodeFloatVector(rows);
      && r.Success? && r.value.FloatVectors?
      && (forall i, j | 0 <= i < |rows| && 0 <= j < d ::
            i * d + j < |r.value.floats| && FloatVal(r.value.floats[i * d + j]) == rows[i].items[j])
  {
    var xss := ItemsOf(rows);
    FloatRowsAccepted(rows, d);
    var floats := EncodeFloatVector(rows).value.floats;
    assert |floats| == |Concat(xss)|;
    assert forall k | 0 <= k < |floats| :: Concat(xss)[k] == FloatVal(floats[k]);
    forall i, j | 0 <= i < |rows| && 0 <= j < d
      ensures i * d + j < |floats| && FloatVal(floats[i * d + j]) == rows[i].items[j]
    {
      assert xss[i] == rows[i].items;
      RowMajorPoint(xss, floats, d, i, j);
    }
  }

  /** One float of a row-major payload. */
  lemma RowMajorPoint(xss: seq<seq<Value>>, floats: seq<Float32>, d: nat, i: nat, j: nat)
    requires Uniform(xss, d) && i < |xss| && j < d
    requires |floats| == |Concat(xss)|
    requires forall k | 0 <= k < |floats| :: Concat(xss)[k] == FloatVal(floats[k])
    ensures i * d + j < |floats| && FloatVal(floats[i * d + j]) == xss[i][j]
  {
    ConcatIndex(xss, d, i, j);
  }

  /** Cutting the float payload by its dimension gives back the rows. */
  lemma FloatVectorRowsRecovered(rows: seq<Value>, d: nat)
    requires 0 < |rows| && 0 < d
    requires forall i | 0 <= i < |rows| :: rows[i].ListVal? && |rows[i].items| == d
    requires forall i, j | 0 <= i < |rows| && 0 <= j < d :: rows[i].items[j].FloatVal?
    ensures var r := EncodeFloatVector(rows);
      && r.Success? && r.value.FloatVectors? && 0 < r.value.dim
      && Chunk(FloatValues(r.value.floats), r.value.dim) == ItemsOf(rows)
  {
    FloatVectorShape(rows, d);
    var r := EncodeFloatVector(rows);
    assert FloatValues(r.value.floats) == Concat(ItemsOf(rows));
    ChunkConcat(ItemsOf(rows), d);
  }

  /** Rows whose backing arrays hold exactly `d` bytes, all written: the
      dimension is `8 * d` bits, the payload is the rows end to end with no
      zero tail, and cutting it by `d` bytes gives the rows back. */
  lemma BinaryVectorLayout(rows: seq<Value>, d: nat)
    requires 0 < |rows|
    requires forall i | 0 <= i < |rows| ::
      rows[i].ByteBufferVal? && |rows[i].buffer.backing| == d && rows[i].buffer.position == d
    ensures var r := EncodeBinaryVector(rows);
      && r.Success? && r.value.BinaryVectors?
      && r.value.dim == 8 * d
      && |r.value.bytes| == |rows| * d
      && r.value.bytes == Concat(ArraysOf(rows))
      && (0 < d ==> Chunk(r.value.bytes, d) == ArraysOf(rows))
  {
    ConcatLength(ArraysOf(rows), d);
    var r := EncodeBinaryVector(rows);
    assert r.value.bytes == Concat(ArraysOf(rows)) + [];
    if 0 < d {
      ChunkConcat(ArraysOf(rows), d);
    }
  }

  /** Row lengths are not checked against the first row; only the total
      matters. Two rows whose arrays fall short of the buffer leave a zero
      tail, two rows that exceed it overflow, and three unequal rows that
      total exactly the buffer's size fill it with neither. */
  lemma BinaryRowLengthsUnchecked()
    ensures EncodeBinaryVector([ByteBufferVal(HeapBuffer([1, 2], 2)), ByteBufferVal(HeapBuffer([3], 1))])
      == Success(BinaryVectors(16, [1, 2, 3, 0]))
    ensures EncodeBinaryVector([ByteBufferVal(HeapBuffer([1], 1)), ByteBufferVal(HeapBuffer([2, 3, 4], 3))])
      == Failure(BufferOverflow)
    ensures EncodeBinaryVector([ByteBufferVal(HeapBuffer([1, 2], 2)), ByteBufferVal(HeapBuffer([3], 1)),
                                ByteBufferVal(HeapBuffer([4, 5, 6], 3))])
      == Success(BinaryVectors(16, [1, 2, 3, 4, 5, 6]))
  {
    var a: seq<seq<Byte>> := [[1, 2], [3]];
    assert ArraysOf([ByteBufferVal(HeapBuffer([1, 2], 2)), ByteBufferVal(HeapBuffer([3], 1))]) == a;
    assert Concat(a) == [1, 2, 3] by {
      assert Concat(a[1..]) == [3] + Concat(a[2..]);
    }
    assert Zeros(1) == [0];
    assert Concat(a) + Zeros(2 * 2 - 3) == [1, 2, 3, 0];
    var b: seq<seq<Byte>> := [[1], [2, 3, 4]];
    assert ArraysOf([ByteBufferVal(HeapBuffer([1], 1)), ByteBufferVal(HeapBuffer([2, 3, 4], 3))]) == b;
    assert |Concat(b)| == 4 by {
      assert Concat(b[1..]) == [2, 3, 4] + Concat(b[2..]);
    }
    var rows := [ByteBufferVal(HeapBuffer([1, 2], 2)), ByteBufferVal(HeapBuffer([3], 1)),
                 ByteBufferVal(HeapBuffer([4, 5, 6], 3))];
    var c: seq<seq<Byte>> := [[1, 2], [3], [4, 5, 6]];
    assert ArraysOf(rows) == c;
    assert Concat(c) == [1, 2, 3, 4, 5, 6] by {
      assert Concat(c[2..]) == [4, 5, 6] + Concat(c[3..]);
      assert Concat(c[1..]) == [3] + Concat(c[2..]);
    }
    assert Concat(c) + Zeros(rows[0].buffer.position * |rows| - |Concat(c)|) == [1, 2, 3, 4, 5, 6];
  }

  /** A scalar column whose elements all have the column's class is encoded
      under its own name and tag, and reading the payload back gives the
      elements in order, a Short as the Integer of the same number. */
  lemma ScalarRoundTrip(name: string, t: DataType, objects: seq<Value>)
    requires IsScalarType(t)
    requires forall i | 0 <= i < |objects| :: Fits(t, objects[i])
    ensures var r := GenFieldData(name, t, Some(objects));
      && r.Success? && r.value.fieldName == name && r.value.dataType == t
      && r.value.payload.Scalars?
      && ScalarValues(r.value.payload.scalars) == seq(|objects|, i requires 0 <= i < |objects| => Widen(objects[i]))
      && ((forall i | 0 <= i < |objects| :: !objects[i].ShortVal?) ==> ScalarValues(r.value.payload.scalars) == objects)
  {
    var r := GenFieldData(name, t, Some(objects));
    assert r.value.payload == Scalars(EncodeScalars(t, objects).value);
  }

  /** Only a Short is widened into an integer column: a Byte element fails
      an Int8, Int16 or Int32 column. */
  lemma ByteNotWidened(name: string, t: DataType, objects: seq<Value>, i: nat)
    requires t == Int8 || t == Int16 || t == Int32
    requires i < |objects| && objects[i].ByteVal?
    ensures GenFieldData(name, t, Some(objects)) == Failure(BadElement)
  {
    ScalarRejectsForeignElement(name, t, objects, i);
  }

  /** One element of the wrong class, or a null element, fails the whole
      scalar column. */
  lemma ScalarRejectsForeignElement(name: string, t: DataType, objects: seq<Value>, i: nat)
    requires IsScalarType(t)
    requires i < |objects| && !Fits(t, objects[i])
    ensures GenFieldData(name, t, Some(objects)) == Failure(BadElement)
  {
  }
}

=== FILE: grpc_messages.dfy ===
/** The wire records the parameter layer produces and consumes, as abstract
    values: the protocol's own byte encoding (tag numbers, nesting,
    `toByteString`) is not modelled. Fields the layer never sets are absent. */
module Grpc {
  import opened Wrappers
  import opened JavaRuntime

  /** The protocol's field data types, `UNRECOGNIZED` standing for any enum
      number this client does not know. */
  datatype DataType =
    | None | Bool | Int8 | Int16 | Int32 | Int64 | Float | Double
    | String | VarChar | BinaryVector | FloatVector | UNRECOGNIZED

  /** `Enum.toString()`: the constant's declared name. */
  function DataTypeName(t: DataType): string {
    match t
    case None => "None"
    case Bool => "Bool"
    case Int8 => "Int8"
    case Int16 => "Int16"
    case Int32 => "Int32"
    case Int64 => "Int64"
    case Float => "Float"
    case Double => "Double"
    case String => "String"
    case VarChar => "VarChar"
    case BinaryVector => "BinaryVector"
    case FloatVector => "FloatVector"
    case UNRECOGNIZED => "UNRECOGNIZED"
  }

  datatype KeyValuePair = KeyValuePair(key: string, value: string)

  /** The typed arrays of a scalar column. */
  datatype ScalarField =
    | LongData(longs: seq<Long>)
    | IntData(ints: seq<Int>)
    | BoolData(bools: seq<bool>)
    | FloatData(floats: seq<Float32>)
    | DoubleData(doubles: seq<Float64>)
    | StringData(strings: seq<string>)

  /** A vector column: its dimension and its rows laid end to end. */
  datatype VectorField =
    | FloatVectors(dim: int, floats: seq<Float32>)
    | BinaryVectors(dim: int, bytes: seq<Byte>)

  datatype FieldPayload = Scalars(scalars: ScalarField) | Vectors(vectors: VectorField)

  /** One encoded column of an insert request. */
  datatype FieldData = FieldData(fieldName: string, dataType: DataType, payload: FieldPayload)

  /** The wire form of one field of a collection schema, restricted to the
      six fields the conversion reads and writes; the field ID and index
      parameters are not kept. */
  datatype FieldSchema = FieldSchema(
    name: string,
    description: string,
    isPrimaryKey: bool,
    autoID: bool,
    dataType: DataType,
    typeParams: seq<KeyValuePair>)

  datatype MsgType = Insert

  datatype InsertRequest = InsertRequest(
    base: MsgType,
    collectionName: string,
    partitionName: string,
    numRows: int,
    fieldsData: seq<FieldData>)

  /** The protocol's `PlaceholderType` values `None`, `BinaryVector` and
      `FloatVector`, renamed apart from the `DataType` constants. */
  datatype PlaceholderType = NoPlaceholder | BinaryPlaceholder | FloatPlaceholder

  /** The target vectors of a search, each one already serialised to bytes. */
  datatype PlaceholderValue = PlaceholderValue(tag: string, kind: PlaceholderType, values: seq<seq<Byte>>)

  datatype PlaceholderGroup = PlaceholderGroup(placeholders: seq<PlaceholderValue>)

  datatype DslType = Dsl | BoolExprV1

  /** A search request; `dsl` is `None` when the request leaves it unset. */
  datatype SearchRequest = SearchRequest(
    dbName: string,
    collectionName: string,
    partitionNames: seq<string>,
    placeholderGroup: PlaceholderGroup,
    searchParams: seq<KeyValuePair>,
    outputFields: seq<string>,
    dslType: DslType,
    dsl: Option<string>,
    travelTimestamp: int,
    guaranteeTimestamp: int)
}

=== FILE: index_build_progress.dfy ===
/** `GetIndexBuildProgressParam` and its builder: a collection name is set
    on a mutable builder, `build()` validates it, and the result is a frozen
    parameter object. The builder is modelled as a value that each setter
    returns updated. */
module IndexBuildProgress {
  import opened Wrappers
  import opened JavaRuntime
  import opened StringCheck

  /** The builder's state: the collection name, null until set. */
  datatype Builder = Builder(collectionName: Option<string>)

  /** The frozen parameter object. */
  datatype GetIndexBuildProgressParam = GetIndexBuildProgressParam(collectionName: string)

  /** How `build()` names the collection name in its message. */
  const COLLECTION_NAME := "Collection name"
  const TO_STRING_PREFIX := "GetIndexBuildProgressParam{collectionName='"
  const TO_STRING_SUFFIX := "'}"

  /** `newBuilder()`: no collection name yet. */
  function NewBuilder(): (b: Builder)
    ensures b.collectionName.None?
  {
    Builder(Option.None)
  }

  /** `withCollectionName(collectionName)`: a null argument is refused by
      the `@NonNull` check; any other value replaces the previous one,
      blank or not. */
  function WithCollectionName(b: Builder, collectionName: Option<string>): (r: Result<Builder, Error>)
    ensures r.Failure? <==> collectionName.None?
    ensures r.Failure? ==> r.error == NullPointer
    ensures r.Success? ==> r.value.collectionName == collectionName
  {
    if collectionName.None? then Failure(NullPointer)
    else Success(b.(collectionName := collectionName))
  }

  /** `build()`: refuses a null, empty or whitespace-only collection name,
      otherwise freezes the builder's name into the parameter object. */
  function Build(b: Builder): (r: Result<GetIndexBuildProgressParam, Error>)
    ensures r.Failure? <==> b.collectionName.None? || AllWhitespace(b.collectionName.value)
    ensures r.Failure? ==> r.error == ParamException("Collection name cannot be null or empty")
    ensures r.Success? ==> r.value.collectionName == b.collectionName.value
  {
    match CheckNullEmptyString(b.collectionName, COLLECTION_NAME)
    case Fail(e) =>
      assert COLLECTION_NAME + " cannot be null or empty" == "Collection name cannot be null or empty";
      Failure(e)
    case Pass => Success(GetIndexBuildProgressParam(b.collectionName.value))
  }

  /** `toString()`. */
  function ToString(p: GetIndexBuildProgressParam): (s: string)
    ensures |s| == |TO_STRING_PREFIX| + |p.collectionName| + |TO_STRING_SUFFIX|
    ensures s[..|TO_STRING_PREFIX|] == TO_STRING_PREFIX
    ensures s[|s| - |TO_STRING_SUFFIX|..] == TO_STRING_SUFFIX
  {
    TO_STRING_PREFIX + p.collectionName + TO_STRING_SUFFIX
  }

  /** Reads the collection name back out of the `toString()` text. */
  function ParseToString(s: string): Option<GetIndexBuildProgressParam> {
    if |s| >= |TO_STRING_PREFIX| + |TO_STRING_SUFFIX|
      && s[..|TO_STRING_PREFIX|] == TO_STRING_PREFIX
      && s[|s| - |TO_STRING_SUFFIX|..] == TO_STRING_SUFFIX
    then Some(GetIndexBuildProgressParam(s[|TO_STRING_PREFIX|..|s| - |TO_STRING_SUFFIX|]))
    else Option.None
  }

  /** The `toString()` text holds the collection name verbatim, so two
      parameter objects print alike only when they are equal. */
  lemma ToStringRoundTrip(p: GetIndexBuildProgressParam)
    ensures ParseToString(ToString(p)) == Some(p)
  {
    var s := ToString(p);
    assert s[|TO_STRING_PREFIX|..|s| - |TO_STRING_SUFFIX|] == p.collectionName;
  }

  /** A chain of `withCollectionName` calls on one builder: stops at the
      first null argument. */
  function WithCollectionNames(b: Builder, names: seq<Option<string>>): (r: Result<Builder, Error>)
    decreases |names|
  {
    if |names| == 0 then Success(b)
    else
      var b' :- WithCollectionName(b, names[0]);
      WithCollectionNames(b', names[1..])
  }

  /** After a chain of non-null names the builder holds the last one, and
      `build()` yields it exactly when it is not blank. */
  lemma {:induction false} LastCollectionNameWins(b: Builder, names: seq<string>)
    requires 0 < |names|
    ensures var r := WithCollectionNames(b, seq(|names|, i requires 0 <= i < |names| => Some(names[i])));
      && r.Success?
      && r.value.collectionName == Some(names[|names| - 1])
      && (Build(r.value).Success? <==> !AllWhitespace(names[|names| - 1]))
      && (Build(r.value).Success? ==> Build(r.value).value.collectionName == names[|names| - 1])
    decreases |names|
  {
    var opts := seq(|names|, i requires 0 <= i < |names| => Some(names[i]));
    var b' := WithCollectionName(b, opts[0]).value;
    if |names| > 1 {
      var rest := seq(|names[1..]|, i requires 0 <= i < |names[1..]| => Some(names[1..][i]));
      assert opts[1..] == rest;
      LastCollectionNameWins(b', names[1..]);
    } else {
      assert opts[1..] == [];
    }
  }
}

=== FILE: insert_conversion.dfy ===
/** `ParamUtils.ConvertInsertParam`: the supplied columns of an insert are
    checked against the collection schema and encoded in schema order. */
module InsertConversion {
  import opened Wrappers
  import opened JavaRuntime
  import opened Grpc
  import opened Params
  import opened FieldEncoding

  /** The index of the first supplied column called `name`, searching from
      `start`: the inner loop, which breaks on the first match. */
  function FindFrom(fields: seq<Field>, name: string, start: nat): (r: Option<nat>)
    requires start <= |fields|
    ensures r.Some? ==> start <= r.value < |fields| && fields[r.value].name == name
    ensures r.Some? ==> forall j | start <= j < r.value :: fields[j].name != name
    ensures r.None? <==> forall j | start <= j < |fields| :: fields[j].name != name
    decreases |fields| - start
  {
    if start == |fields| then Option.None
    else if fields[start].name == name then Some(start)
    else FindFrom(fields, name, start + 1)
  }

  /** The supplied column the conversion uses for the schema field `name`:
      the first one of that name, if any. */
  function Column(fields: seq<Field>, name: string): (r: Option<Field>)
    ensures r.None? <==> forall j | 0 <= j < |fields| :: fields[j].name != name
    ensures r.Some? ==> r.value.name == name
    ensures r.Some? ==> exists j | 0 <= j < |fields| ::
      (fields[j] == r.value && forall m | 0 <= m < j :: fields[m].name != name)
  {
    match FindFrom(fields, name, 0)
    case None => Option.None
    case Some(j) => Some(fields[j])
  }

  function AutoIdMessage(name: string): string {
    "The primary key: " + name + " is auto generated, no need to input."
  }

  function TypeMismatchMessage(name: string): string {
    "The field: " + name + " data type doesn't match the collection schema."
  }

  function MissingMessage(name: string): string {
    "The field: " + name + " is not provided."
  }

  /** One pass of the outer loop for the schema field `ft`: `None` when the
      field is auto-generated and absent, its encoded column otherwise. */
  function ConvertSchemaField(ft: FieldType, fields: seq<Field>): (r: Result<Option<FieldData>, Error>)
    ensures r.Success? <==> Accepted(ft, fields)
    ensures r.Success? ==> (r.value.None? <==> ft.autoID)
    ensures r.Success? && r.value.Some? ==> r.value.value == Encoded(ft, fields)
    ensures ft.autoID && Column(fields, ft.name).Some? ==>
      r == Failure(ParamException(AutoIdMessage(ft.name)))
    ensures !ft.autoID && Column(fields, ft.name).Some? && Column(fields, ft.name).value.dataType != ft.dataType ==>
      r == Failure(ParamException(TypeMismatchMessage(ft.name)))
    ensures !ft.autoID && Column(fields, ft.name).None? ==>
      r == Failure(ParamException(MissingMessage(ft.name)))
    ensures !ft.autoID && Column(fields, ft.name).Some? && Column(fields, ft.name).value.dataType == ft.dataType ==>
      var f := Column(fields, ft.name).value;
      GenFieldData(f.name, f.dataType, f.values).Failure? ==> r == Failure(GenFieldData(f.name, f.dataType, f.values).error)
  {
    match Column(fields, ft.name)
    case Some(f) =>
      if ft.autoID then Failure(ParamException(AutoIdMessage(ft.name)))
      else if ft.dataType != f.dataType then Failure(ParamException(TypeMismatchMessage(ft.name)))
      else
        var fd :- GenFieldData(f.name, f.dataType, f.values);
        Success(Some(fd))
    case None =>
      if !ft.autoID then Failure(ParamException(MissingMessage(ft.name)))
      else Success(Option.None)
  }

  /** The schema's fields that the caller must supply, in declared order. */
  function NonAutoFields(schema: seq<FieldType>): (r: seq<FieldType>)
    ensures |r| <= |schema|
    ensures forall j | 0 <= j < |r| :: !r[j].autoID && r[j] in schema
  {
    if |schema| == 0 then []
    else if schema[0].autoID then NonAutoFields(schema[1..])
    else [schema[0]] + NonAutoFields(schema[1..])
  }

  /** `r` is the schema fields at the strictly increasing positions `idx`,
      and `idx` holds every position of a caller-supplied field. */
  ghost predicate SelectsNonAuto(schema: seq<FieldType>, r: seq<FieldType>, idx: seq<nat>) {
    && |idx| == |r|
    && (forall j | 0 <= j < |idx| :: idx[j] < |schema| && schema[idx[j]] == r[j])
    && (forall j, k | 0 <= j < k < |idx| :: idx[j] < idx[k])
    && (forall i | 0 <= i < |schema| && !schema[i].autoID :: i in idx)
  }

  /** The caller-supplied fields keep their declared order: each appears
      once per declaration, and nothing else does. */
  lemma {:induction false} NonAutoFieldsInOrder(schema: seq<FieldType>)
    ensures exists idx :: SelectsNonAuto(schema, NonAutoFields(schema), idx)
    decreases |schema|
  {
    if |schema| == 0 {
      assert NonAutoFields(schema) == [];
      assert SelectsNonAuto(schema, [], []);
    } else {
      NonAutoFieldsInOrder(schema[1..]);
      var rest := NonAutoFields(schema[1..]);
      var idx' :| SelectsNonAuto(schema[1..], rest, idx');
      var shifted := ShiftSelection(schema, rest, idx');
      if schema[0].autoID {
        assert SelectsNonAuto(schema, NonAutoFields(schema), shifted);
      } else {
        assert NonAutoFields(schema) == [schema[0]] + rest;
        PrependSelection(schema, NonAutoFields(schema), rest, shifted);
      }
    }
  }

  /** A selection from `schema[1..]` shifted by one selects from `schema`
      everything but its head. */
  lemma ShiftSelection(schema: seq<FieldType>, rest: seq<FieldType>, idx': seq<nat>) returns (shifted: seq<nat>)
    requires 0 < |schema| && SelectsNonAuto(schema[1..], rest, idx')
    ensures |shifted| == |rest|
    ensures forall j | 0 <= j < |shifted| :: 1 <= shifted[j] < |schema| && schema[shifted[j]] == rest[j]
    ensures forall j, k | 0 <= j < k < |shifted| :: shifted[j] < shifted[k]
    ensures forall i | 1 <= i < |schema| && !schema[i].autoID :: i in shifted
  {
    shifted := seq(|idx'|, j requires 0 <= j < |idx'| => idx'[j] + 1);
    forall i | 1 <= i < |schema| && !schema[i].autoID
      ensures i in shifted
    {
      assert schema[1..][i - 1] == schema[i];
      var j :| 0 <= j < |idx'| && idx'[j] == i - 1;
      assert shifted[j] == i;
    }
  }

  /** A caller-supplied head goes in front of the shifted selection. */
  lemma PrependSelection(schema: seq<FieldType>, r: seq<FieldType>, rest: seq<FieldType>, shifted: seq<nat>)
    requires 0 < |schema| && !schema[0].autoID && r == [schema[0]] + rest
    requires |shifted| == |rest|
    requires forall j | 0 <= j < |shifted| :: 1 <= shifted[j] < |schema| && schema[shifted[j]] == rest[j]
    requires forall j, k | 0 <= j < k < |shifted| :: shifted[j] < shifted[k]
    requires forall i | 1 <= i < |schema| && !schema[i].autoID :: i in shifted
    ensures exists idx :: SelectsNonAuto(schema, r, idx)
  {
    var idx := [0] + shifted;
    assert |idx| == |r|;
    forall j | 0 <= j < |idx|
      ensures idx[j] < |schema| && schema[idx[j]] == r[j]
    {
      if j > 0 {
        assert idx[j] == shifted[j - 1] && r[j] == rest[j - 1];
      }
    }
    forall j, k | 0 <= j < k < |idx|
      ensures idx[j] < idx[k]
    {
      assert idx[k] == shifted[k - 1];
      if j > 0 {
        assert idx[j] == shifted[j - 1];
      }
    }
    forall i | 0 <= i < |schema| && !schema[i].autoID
      ensures i in idx
    {
      if i > 0 {
        assert i in shifted;
      }
    }
    assert SelectsNonAuto(schema, r, idx);
  }

  /** The schema field `ft` is satisfied by the supplied columns: an
      auto-generated field has no column of its name; any other field has
      one, the first of which has the declared type and encodes. */
  predicate Accepted(ft: FieldType, fields: seq<Field>) {
    match Column(fields, ft.name)
    case None => ft.autoID
    case Some(f) =>
      && !ft.autoID
      && f.dataType == ft.dataType
      && GenFieldData(f.name, f.dataType, f.values).Success?
  }

  /** The column an accepted, caller-supplied schema field turns into. */
  function Encoded(ft: FieldType, fields: seq<Field>): FieldData
    requires Accepted(ft, fields) && !ft.autoID
  {
    var f := Column(fields, ft.name).value;
    GenFieldData(f.name, f.dataType, f.values).value
  }

  /** The outer loop over the schema: stops at the first field that is not
      accepted, otherwise yields one column per caller-supplied field. */
  function ConvertFieldsData(schema: seq<FieldType>, fields: seq<Field>): (r: Result<seq<FieldData>, Error>)
    ensures r.Success? <==> forall k | 0 <= k < |schema| :: Accepted(schema[k], fields)
    ensures r.Success? ==> |r.value| == |NonAutoFields(schema)|
    ensures r.Success? ==> forall j | 0 <= j < |r.value| ::
      Accepted(NonAutoFields(schema)[j], fields) && r.value[j] == Encoded(NonAutoFields(schema)[j], fields)
    decreases |schema|
  {
    if |schema| == 0 then Success([])
    else
      var head :- ConvertSchemaField(schema[0], fields);
      var tail :- ConvertFieldsData(schema[1..], fields);
      assert forall k | 1 <= k < |schema| :: schema[1..][k - 1] == schema[k];
      assert NonAutoFields(schema) == (if head.Some? then [schema[0]] else []) + NonAutoFields(schema[1..]);
      PrependColumn(schema, NonAutoFields(schema), NonAutoFields(schema[1..]), fields, head, tail);
      Success(if head.Some? then [head.value] + tail else tail)
  }

  /** One accepted schema field in front of the columns of the rest:
      `all` and `rest` are the caller-supplied fields of the schema and of
      its tail. */
  lemma {:induction false} PrependColumn(
    schema: seq<FieldType>, all: seq<FieldType>, rest: seq<FieldType>,
    fields: seq<Field>, head: Option<FieldData>, tail: seq<FieldData>)
    requires 0 < |schema| && Accepted(schema[0], fields)
    requires head.None? <==> schema[0].autoID
    requires head.Some? ==> head.value == Encoded(schema[0], fields)
    requires all == (if head.Some? then [schema[0]] else []) + rest
    requires forall j | 0 <= j < |rest| :: !rest[j].autoID
    requires |tail| == |rest|
    requires forall j | 0 <= j < |tail| :: Accepted(rest[j], fields) && tail[j] == Encoded(rest[j], fields)
    ensures var r := if head.Some? then [head.value] + tail else tail;
      && |r| == |all|
      && forall j | 0 <= j < |r| :: !all[j].autoID && Accepted(all[j], fields) && r[j] == Encoded(all[j], fields)
  {
    var encodes := (ft: FieldType, fd: FieldData) =>
      !ft.autoID && Accepted(ft, fields) && fd == Encoded(ft, fields);
    if head.Some? {
      PrependPairs(schema[0], head.value, rest, tail, encodes);
    }
  }

  /** A relation that holds pairwise between two sequences still holds
      once a related pair is put in front of both. */
  lemma PrependPairs<A, B>(x: A, y: B, xs: seq<A>, ys: seq<B>, rel: (A, B) -> bool)
    requires |xs| == |ys| && rel(x, y)
    requires forall j | 0 <= j < |xs| :: rel(xs[j], ys[j])
    ensures forall j | 0 <= j < |xs| + 1 :: rel(([x] + xs)[j], ([y] + ys)[j])
  {
    forall j | 0 <= j < |xs| + 1
      ensures rel(([x] + xs)[j], ([y] + ys)[j])
    {
      if j > 0 {
        assert ([x] + xs)[j] == xs[j - 1] && ([y] + ys)[j] == ys[j - 1];
      }
    }
  }

  /** `ConvertInsertParam(requestParam, fieldTypes)`. */
  function ConvertInsertParam(param: InsertParam, schema: seq<FieldType>): (r: Result<InsertRequest, Error>)
    ensures r.Success? <==> forall k | 0 <= k < |schema| :: Accepted(schema[k], param.fields)
    ensures r.Success? ==>
      && r.value.base == Insert
      && r.value.collectionName == param.collectionName
      && r.value.partitionName == param.partitionName
      && r.value.numRows == param.rowCount
    ensures r.Success? ==> |r.value.fieldsData| == |NonAutoFields(schema)|
    ensures r.Success? ==> forall j | 0 <= j < |r.value.fieldsData| ::
      && r.value.fieldsData[j].fieldName == NonAutoFields(schema)[j].name
      && r.value.fieldsData[j].dataType == NonAutoFields(schema)[j].dataType
      && r.value.fieldsData[j] == Encoded(NonAutoFields(schema)[j], param.fields)
  {
    var data :- ConvertFieldsData(schema, param.fields);
    Success(InsertRequest(Insert, param.collectionName, param.partitionName, param.rowCount, data))
  }
}

/** The schema-conformance rules of an insert, stated over all inputs. */
module InsertFacts {
  import opened Wrappers
  import opened JavaRuntime
  import opened Grpc
  import opened Params
  import opened FieldEncoding
  import opened InsertConversion
  import opened Seqs
  import opened FieldEncodingFacts

  /** A column of the name with no earlier column of that name is the one
      the conversion uses. */
  lemma ColumnIsFirst(fields: seq<Field>, name: string, j: nat)
    requires j < |fields| && fields[j].name == name
    requires forall m | 0 <= m < j :: fields[m].name != name
    ensures Column(fields, name) == Some(fields[j])
  {
    var c := Column(fields, name);
    var j' :| 0 <= j' < |fields| && fields[j'] == c.value && forall m | 0 <= m < j' :: fields[m].name != name;
    assert j' == j;
  }

  /** Where each column of `fields` sits once `extra` is placed at `i`. */
  lemma InsertedAt(fields: seq<Field>, extra: Field, i: nat, m: nat)
    requires i <= |fields| && m <= |fields|
    ensures (fields[..i] + [extra] + fields[i..])[m] ==
      (if m < i then fields[m] else if m == i then extra else fields[m - 1])
  {
  }

  /** A column placed where it is not the first of a schema name leaves
      the column the conversion uses for that name unchanged. */
  lemma ColumnAfterInsert(fields: seq<Field>, extra: Field, i: nat, name: string)
    requires i <= |fields|
    requires extra.name != name || exists j | 0 <= j < i :: fields[j].name == name
    ensures Column(fields[..i] + [extra] + fields[i..], name) == Column(fields, name)
  {
    var g := fields[..i] + [extra] + fields[i..];
    match Column(fields, name)
    case None =>
      forall m | 0 <= m < |g|
        ensures g[m].name != name
      {
        InsertedAt(fields, extra, i, m);
      }
    case Some(f) =>
      var j :| 0 <= j < |fields| && fields[j] == f && forall m | 0 <= m < j :: fields[m].name != name;
      if j < i {
        forall m | 0 <= m <= j
          ensures g[m] == fields[m]
        {
          InsertedAt(fields, extra, i, m);
        }
        ColumnIsFirst(g, name, j);
      } else {
        forall m | 0 <= m <= j + 1
          ensures g[m].name != name || m == j + 1
        {
          InsertedAt(fields, extra, i, m);
        }
        InsertedAt(fields, extra, i, j + 1);
        ColumnIsFirst(g, name, j + 1);
      }
  }

  /** The conversion sees the supplied columns only through the first
      column of each schema name. */
  lemma {:induction false} ConvertDependsOnlyOnFirstColumns(schema: seq<FieldType>, f1: seq<Field>, f2: seq<Field>)
    requires forall k | 0 <= k < |schema| :: Column(f1, schema[k].name) == Column(f2, schema[k].name)
    ensures ConvertFieldsData(schema, f1) == ConvertFieldsData(schema, f2)
    decreases |schema|
  {
    if |schema| > 0 {
      assert ConvertSchemaField(schema[0], f1) == ConvertSchemaField(schema[0], f2);
      ConvertDependsOnlyOnFirstColumns(schema[1..], f1, f2);
    }
  }

  /** A supplied column whose name is not in the schema is ignored,
      wherever it appears. */
  lemma InsertIgnoresUnknownColumn(param: InsertParam, schema: seq<FieldType>, extra: Field, i: nat)
    requires i <= |param.fields|
    requires forall k | 0 <= k < |schema| :: schema[k].name != extra.name
    ensures ConvertInsertParam(param.(fields := param.fields[..i] + [extra] + param.fields[i..]), schema)
      == ConvertInsertParam(param, schema)
  {
    var g := param.fields[..i] + [extra] + param.fields[i..];
    forall k | 0 <= k < |schema|
      ensures Column(g, schema[k].name) == Column(param.fields, schema[k].name)
    {
      ColumnAfterInsert(param.fields, extra, i, schema[k].name);
    }
    ConvertDependsOnlyOnFirstColumns(schema, g, param.fields);
  }

  /** Of two supplied columns with the same name only the first is used: a
      later one is ignored whatever its type and values. */
  lemma InsertIgnoresLaterDuplicate(param: InsertParam, schema: seq<FieldType>, extra: Field, i: nat, j: nat)
    requires j < i <= |param.fields| && param.fields[j].name == extra.name
    ensures ConvertInsertParam(param.(fields := param.fields[..i] + [extra] + param.fields[i..]), schema)
      == ConvertInsertParam(param, schema)
  {
    var g := param.fields[..i] + [extra] + param.fields[i..];
    forall k | 0 <= k < |schema|
      ensures Column(g, schema[k].name) == Column(param.fields, schema[k].name)
    {
      ColumnAfterInsert(param.fields, extra, i, schema[k].name);
    }
    ConvertDependsOnlyOnFirstColumns(schema, g, param.fields);
  }

  /** The conversion reports the first schema field, in declared order,
      that the supplied columns do not satisfy. */
  lemma {:induction false} InsertReportsFirstRejected(schema: seq<FieldType>, fields: seq<Field>, k: nat)
    requires k < |schema|
    requires forall m | 0 <= m < k :: Accepted(schema[m], fields)
    requires !Accepted(schema[k], fields)
    ensures ConvertFieldsData(schema, fields) == Failure(ConvertSchemaField(schema[k], fields).error)
    decreases k
  {
    if k > 0 {
      InsertReportsFirstRejected(schema[1..], fields, k - 1);
    }
  }

  /** A supplied column for an auto-generated field is refused, whatever
      its type: this check comes before the type check. */
  lemma InsertRejectsSuppliedAutoId(param: InsertParam, schema: seq<FieldType>, k: nat)
    requires k < |schema|
    requires forall m | 0 <= m < k :: Accepted(schema[m], param.fields)
    requires schema[k].autoID
    requires exists j | 0 <= j < |param.fields| :: param.fields[j].name == schema[k].name
    ensures ConvertInsertParam(param, schema) == Failure(ParamException(AutoIdMessage(schema[k].name)))
  {
    InsertReportsFirstRejected(schema, param.fields, k);
  }

  /** A supplied column whose type differs from the declared one is
      refused. */
  lemma InsertRejectsTypeMismatch(param: InsertParam, schema: seq<FieldType>, k: nat, j: nat)
    requires k < |schema|
    requires forall m | 0 <= m < k :: Accepted(schema[m], param.fields)
    requires !schema[k].autoID
    requires j < |param.fields| && param.fields[j].name == schema[k].name
    requires forall m | 0 <= m < j :: param.fields[m].name != schema[k].name
    requires param.fields[j].dataType != schema[k].dataType
    ensures ConvertInsertParam(param, schema) == Failure(ParamException(TypeMismatchMessage(schema[k].name)))
  {
    ColumnIsFirst(param.fields, schema[k].name, j);
    InsertReportsFirstRejected(schema, param.fields, k);
  }

  /** A field the caller must supply but did not is refused. */
  lemma InsertRejectsMissingColumn(param: InsertParam, schema: seq<FieldType>, k: nat)
    requires k < |schema|
    requires forall m | 0 <= m < k :: Accepted(schema[m], param.fields)
    requires !schema[k].autoID
    requires forall j | 0 <= j < |param.fields| :: param.fields[j].name != schema[k].name
    ensures ConvertInsertParam(param, schema) == Failure(ParamException(MissingMessage(schema[k].name)))
  {
    InsertReportsFirstRejected(schema, param.fields, k);
  }

  /** An auto-generated key left out and one float-vector column supplied:
      the request holds just that column, two floats per row. */
  lemma InsertSkipsAbsentAutoId(param: InsertParam)
    requires param.fields == [Field("vec", FloatVector, Some([ListVal([FloatVal(1), FloatVal(2)]), ListVal([FloatVal(3), FloatVal(4)])]))]
    ensures var schema := [FieldType("id", "", true, true, Int64, map[]), FieldType("vec", "", false, false, FloatVector, map[])];
      var r := ConvertInsertParam(param, schema);
      && r.Success?
      && |r.value.fieldsData| == 1
      && r.value.fieldsData[0].fieldName == "vec"
      && r.value.fieldsData[0].payload == Vectors(FloatVectors(2, [1, 2, 3, 4]))
  {
    var schema := [FieldType("id", "", true, true, Int64, map[]), FieldType("vec", "", false, false, FloatVector, map[])];
    var rows := param.fields[0].values.value;
    assert Column(param.fields, "id").None? by {
      assert param.fields[0].name != "id";
    }
    assert Column(param.fields, "vec") == Some(param.fields[0]) by {
      ColumnIsFirst(param.fields, "vec", 0);
    }
    var xss := [[FloatVal(1), FloatVal(2)], [FloatVal(3), FloatVal(4)]];
    assert ItemsOf(rows) == xss;
    assert Concat(xss) == [FloatVal(1), FloatVal(2), FloatVal(3), FloatVal(4)] by {
      assert Concat(xss[1..]) == xss[1] + Concat(xss[2..]);
    }
    FloatVectorShape(rows, 2);
    var v := EncodeFloatVector(rows).value;
    assert FloatVal(v.floats[0]) == FloatVal(1) && FloatVal(v.floats[1]) == FloatVal(2);
    assert FloatVal(v.floats[2]) == FloatVal(3) && FloatVal(v.floats[3]) == FloatVal(4);
    assert v.floats == [1, 2, 3, 4];
    assert NonAutoFields(schema) == [schema[1]] by {
      assert NonAutoFields(schema[1..]) == [schema[1]] + NonAutoFields(schema[2..]);
    }
  }
}

=== FILE: java_runtime.dfy ===
/** The slice of the Java runtime the parameter layer leans on: boxed values
    that arrive behind `List<?>` and `Object`, the exceptions a conversion can
    end in, `Character.isWhitespace` / `StringUtils.isBlank`, and the decimal
    rendering of `String.valueOf` on an integer. */
module JavaRuntime {
  import opened Wrappers

  type Byte = bv8
  /** A `float` as its raw IEEE-754 bit pattern; no arithmetic is done on it. */
  type Float32 = bv32
  /** A `double` as its raw IEEE-754 bit pattern. */
  type Float64 = bv64

  type Long = x: int | -0x8000_0000_0000_0000 <= x < 0x8000_0000_0000_0000
  type Int = x: int | -0x8000_0000 <= x < 0x8000_0000
  type Short = x: int | -0x8000 <= x < 0x8000
  type Int8 = x: int | -0x80 <= x < 0x80

  /** A heap `ByteBuffer`: its backing array and its position. */
  datatype HeapBuffer = HeapBuffer(backing: seq<Byte>, position: nat)

  /** A buffer's position never passes the end of its backing array. */
  type ByteBuffer = b: HeapBuffer | b.position <= |b.backing| witness HeapBuffer([], 0)

  /** A Java object as seen through `Object` or an unchecked `List<?>`:
      the runtime class is the constructor. */
  datatype Value =
    | Null
    | LongVal(longValue: Long)
    | IntVal(intValue: Int)
    | ShortVal(shortValue: Short)
    | ByteVal(byteValue: Int8)
    | BoolVal(boolValue: bool)
    | FloatVal(floatBits: Float32)
    | DoubleVal(doubleBits: Float64)
    | StringVal(str: string)
    | ListVal(items: seq<Value>)
    | ByteBufferVal(buffer: ByteBuffer)

  /** The exceptions a conversion can end in. */
  datatype Error =
    | ParamException(message: string)
      /** a `@NonNull` argument that is null, or a dereference of null */
    | NullPointer
      /** an element of the wrong runtime class, or a null element, met by a
          cast or by a protobuf `addAll` (ClassCastException or
          NullPointerException; which of the two depends on the protobuf
          runtime, so they are not told apart) */
    | BadElement
      /** integer division by zero (ArithmeticException) */
    | DivideByZero
      /** a `ByteBuffer.put` past the buffer's capacity */
    | BufferOverflow

  /** `Character.isWhitespace(char)`: the Unicode space, line and paragraph
      separators other than the non-breaking spaces U+00A0, U+2007 and
      U+202F, plus the controls U+0009..U+000D and U+001C..U+001F. */
  predicate IsWhitespace(c: char) {
    || '\U{9}' <= c <= '\U{D}'
    || '\U{1C}' <= c <= '\U{20}'
    || c == '\U{1680}'
    || '\U{2000}' <= c <= '\U{2006}'
    || '\U{2008}' <= c <= '\U{200A}'
    || c == '\U{2028}' || c == '\U{2029}'
    || c == '\U{205F}' || c == '\U{3000}'
  }

  /** Every character of `s` is whitespace (vacuously so for ""). */
  ghost predicate AllWhitespace(s: string) {
    forall i | 0 <= i < |s| :: IsWhitespace(s[i])
  }

  /** `StringUtils.isBlank` on a non-null string: true for the empty string,
      otherwise scans left to right and stops at the first non-whitespace
      character. */
  function IsBlank(s: string): (r: bool)
    ensures r <==> AllWhitespace(s)
  {
    if |s| == 0 then true
    else if !IsWhitespace(s[0]) then false
    else IsBlank(s[1..])
  }

  function DigitChar(d: nat): (c: char)
    requires d < 10
  {
    "0123456789"[d]
  }

  /** The decimal digits of a natural number, most significant first,
      without leading zeros. */
  function NatDigits(n: nat): (s: string)
    ensures 0 < |s|
    ensures AllDigits(s)
    ensures |s| > 1 ==> s[0] != '0'
    ensures s[0] == '0' <==> n == 0
    decreases n
  {
    if n < 10 then [DigitChar(n)] else NatDigits(n / 10) + [DigitChar(n % 10)]
  }

  /** `String.valueOf` on an `int` or `long`: an optional minus sign and the digits of the
      magnitude, with no leading zero and no "-0". */
  function DecimalString(n: int): (s: string)
    ensures 0 < |s|
    ensures s[0] == '-' <==> n < 0
    ensures forall i | (if n < 0 then 1 else 0) <= i < |s| :: '0' <= s[i] <= '9'
    ensures n < 0 ==> 1 < |s| && s[1] != '0'
    ensures 0 <= n && 1 < |s| ==> s[0] != '0'
  {
    if n < 0 then "-" + NatDigits(-n) else NatDigits(n)
  }

  /** Every character is an ASCII decimal digit. */
  predicate AllDigits(s: string) {
    forall i | 0 <= i < |s| :: '0' <= s[i] <= '9'
  }

  /** Reads back a digit string written by `NatDigits`. */
  function ParseDigits(s: string): nat
    requires AllDigits(s)
  {
    if |s| == 0 then 0
    else 10 * ParseDigits(s[..|s| - 1]) + ((s[|s| - 1] as int) - ('0' as int))
  }

  /** Reads back a string written by `DecimalString`. */
  function ParseDecimal(s: string): Option<int> {
    if 0 < |s| && s[0] == '-' then
      if 1 < |s| && AllDigits(s[1..])
      then Some(0 - ParseDigits(s[1..]) as int) else None
    else if 0 < |s| && AllDigits(s)
    then Some(ParseDigits(s)) else None
  }

  lemma {:induction false} NatDigitsRoundTrip(n: nat)
    ensures ParseDigits(NatDigits(n)) == n
    decreases n
  {
    if n >= 10 {
      var s := NatDigits(n);
      assert s[..|s| - 1] == NatDigits(n / 10);
      NatDigitsRoundTrip(n / 10);
    }
  }

  /** A minus sign before a digit string reads back as the negated digits. */
  lemma ParseNegative(digits: string)
    requires 0 < |digits|
    requires AllDigits(digits)
    ensures ParseDecimal("-" + digits) == Some(0 - ParseDigits(digits) as int)
  {
    assert ("-" + digits)[1..] == digits;
  }

  /** The decimal rendering is read back as the number it renders. */
  lemma {:induction false} DecimalRoundTrip(n: int)
    ensures ParseDecimal(DecimalString(n)) == Some(n)
  {
    if n < 0 {
      NatDigitsRoundTrip(-n);
      ParseNegative(NatDigits(-n));
    } else {
      NatDigitsRoundTrip(n);
    }
  }
}

=== FILE: params.dfy ===
/** The client-side parameter records the converters read. Their builders'
    own validation is not part of this model: the records hold what a
    successful build leaves in them, with `Option` where a value may still
    be null. */
module Params {
  import opened Wrappers
  import opened JavaRuntime
  import opened Grpc

  /** A field of a collection schema as the client describes it. */
  datatype FieldType = FieldType(
    name: string,
    description: string,
    primaryKey: bool,
    autoID: bool,
    dataType: DataType,
    typeParams: map<string, string>)

  /** One supplied column of an insert: a null value list is `None`. */
  datatype Field = Field(name: string, dataType: DataType, values: Option<seq<Value>>)

  datatype InsertParam = InsertParam(
    collectionName: string,
    partitionName: string,
    fields: seq<Field>,
    rowCount: int)

  /** A search: each target vector is a `List<Float>` or a `ByteBuffer`
      behind `Object`; `params` and `expr` may be null. */
  datatype SearchParam = SearchParam(
    collectionName: string,
    partitionNames: seq<string>,
    vectorFieldName: string,
    vectors: seq<Value>,
    topK: int,
    metricType: string,
    roundDecimal: int,
    params: Option<string>,
    outFields: seq<string>,
    expr: Option<string>,
    travelTimestamp: int,
    guaranteeTimestamp: int)
}

=== FILE: schema_conversion.dfy ===
/** The two `ParamUtils.ConvertField` overloads: a field schema from the
    wire to the client's `FieldType`, and back. */
module SchemaConversion {
  import opened Wrappers
  import opened JavaRuntime
  import opened Grpc
  import opened Params

  /** `addTypeParam(key, value)` applied to each pair in order: a later pair
      overrides an earlier pair with the same key. */
  function PairsToMap(pairs: seq<KeyValuePair>): (m: map<string, string>)
    ensures m.Keys == set i | 0 <= i < |pairs| :: pairs[i].key
    decreases |pairs|
  {
    if |pairs| == 0 then map[]
    else
      var last := pairs[|pairs| - 1];
      PairsToMap(pairs[..|pairs| - 1])[last.key := last.value]
  }

  /** `order` lists every key of the map exactly once: the iteration order
      of the client's `HashMap`, which is not specified. */
  ghost predicate Enumerates(order: seq<string>, keys: set<string>) {
    && (forall i, j | 0 <= i < j < |order| :: order[i] != order[j])
    && (forall i | 0 <= i < |order| :: order[i] in keys)
    && (forall k | k in keys :: k in order)
  }

  /** No two pairs share a key. */
  ghost predicate DistinctKeys(pairs: seq<KeyValuePair>) {
    forall i, j | 0 <= i < j < |pairs| :: pairs[i].key != pairs[j].key
  }

  function KeysOf(pairs: seq<KeyValuePair>): (r: seq<string>)
    ensures |r| == |pairs|
    ensures forall i | 0 <= i < |pairs| :: r[i] == pairs[i].key
  {
    seq(|pairs|, i requires 0 <= i < |pairs| => pairs[i].key)
  }

  /** `ConvertField(FieldSchema)`: a wire field schema as a client field
      type, its type parameters gathered into a map. */
  function FromSchema(fs: FieldSchema): (ft: FieldType)
    ensures ft.typeParams.Keys == set i | 0 <= i < |fs.typeParams| :: fs.typeParams[i].key
  {
    FieldType(fs.name, fs.description, fs.isPrimaryKey, fs.autoID, fs.dataType, PairsToMap(fs.typeParams))
  }

  /** `ConvertField(FieldType)`: a client field type as a wire field schema,
      one key/value pair per type parameter, in the map's iteration order
      `order`. */
  function ToSchema(ft: FieldType, order: seq<string>): (fs: FieldSchema)
    requires Enumerates(order, ft.typeParams.Keys)
    ensures KeysOf(fs.typeParams) == order
    ensures DistinctKeys(fs.typeParams)
    ensures forall i | 0 <= i < |fs.typeParams| ::
      fs.typeParams[i].key in ft.typeParams && ft.typeParams[fs.typeParams[i].key] == fs.typeParams[i].value
    ensures forall k | k in ft.typeParams :: exists i | 0 <= i < |fs.typeParams| :: fs.typeParams[i].key == k
  {
    var pairs := seq(|order|, i requires 0 <= i < |order| => KeyValuePair(order[i], ft.typeParams[order[i]]));
    assert forall k | k in ft.typeParams :: exists i | 0 <= i < |pairs| :: pairs[i].key == k by {
      forall k | k in ft.typeParams
        ensures exists i | 0 <= i < |pairs| :: pairs[i].key == k
      {
        var i :| 0 <= i < |order| && order[i] == k;
        assert pairs[i].key == k;
      }
    }
    FieldSchema(ft.name, ft.description, ft.primaryKey, ft.autoID, ft.dataType, pairs)
  }

  /** The value a key ends up with is the one of its last pair. */
  lemma {:induction false} LastPairWins(pairs: seq<KeyValuePair>, i: nat)
    requires i < |pairs|
    requires forall j | i < j < |pairs| :: pairs[j].key != pairs[i].key
    ensures pairs[i].key in PairsToMap(pairs)
    ensures PairsToMap(pairs)[pairs[i].key] == pairs[i].value
    decreases |pairs|
  {
    if i < |pairs| - 1 {
      var init := pairs[..|pairs| - 1];
      LastPairWins(init, i);
    }
  }

  /** Pairs with distinct keys become the map that sends each key to its
      pair's value. */
  lemma PairsToMapDistinct(pairs: seq<KeyValuePair>)
    requires DistinctKeys(pairs)
    ensures forall i | 0 <= i < |pairs| :: PairsToMap(pairs)[pairs[i].key] == pairs[i].value
  {
    forall i | 0 <= i < |pairs|
      ensures PairsToMap(pairs)[pairs[i].key] == pairs[i].value
    {
      LastPairWins(pairs, i);
    }
  }

  /** A client field type sent to the wire and read back is unchanged:
      name, description, flags, data type and type parameters. */
  lemma ClientRoundTrip(ft: FieldType, order: seq<string>)
    requires Enumerates(order, ft.typeParams.Keys)
    ensures FromSchema(ToSchema(ft, order)) == ft
  {
    var fs := ToSchema(ft, order);
    PairsToMapDistinct(fs.typeParams);
    var m := PairsToMap(fs.typeParams);
    forall k | k in ft.typeParams
      ensures k in m && m[k] == ft.typeParams[k]
    {
      var i :| 0 <= i < |fs.typeParams| && fs.typeParams[i].key == k;
    }
    forall k | k in m
      ensures k in ft.typeParams
    {
      var i :| 0 <= i < |fs.typeParams| && fs.typeParams[i].key == k;
    }
    assert m == ft.typeParams;
  }

  /** A wire field schema whose type parameters have distinct keys, read
      by the client and sent back in the same parameter order, is
      unchanged. */
  lemma WireRoundTrip(fs: FieldSchema)
    requires DistinctKeys(fs.typeParams)
    ensures Enumerates(KeysOf(fs.typeParams), FromSchema(fs).typeParams.Keys)
    ensures ToSchema(FromSchema(fs), KeysOf(fs.typeParams)) == fs
  {
    var ft := FromSchema(fs);
    var order := KeysOf(fs.typeParams);
    forall k | k in ft.typeParams.Keys
      ensures k in order
    {
      var i :| 0 <= i < |fs.typeParams| && fs.typeParams[i].key == k;
      assert order[i] == k;
    }
    PairsToMapDistinct(fs.typeParams);
    var back := ToSchema(ft, order);
    assert back.typeParams == fs.typeParams;
  }
}

=== FILE: search_conversion.dfy ===
/** `ParamUtils.ConvertSearchParam`: target vectors serialised into a
    placeholder group, the search parameters in their fixed order, and the
    boolean filter expression. */
module SearchConversion {
  import opened Wrappers
  import opened JavaRuntime
  import opened Grpc
  import opened Params
  import opened FieldEncoding

  /** The protocol's key strings and placeholder tag (the client's
      `Constant` class). */
  const VECTOR_TAG := "$0"
  const VECTOR_FIELD := "anns_field"
  const TOP_K := "topk"
  const METRIC_TYPE := "metric_type"
  const ROUND_DECIMAL := "round_decimal"
  const PARAMS := "params"

  const ILLEGAL_VECTOR_MESSAGE := "Search target vector type is illegal(Only allow List<Float> or ByteBuffer)"

  /** `ByteBuffer.putFloat` in little-endian order: the raw bits, least
      significant byte first. */
  function FloatBytes(bits: Float32): (r: seq<Byte>)
    ensures |r| == 4
    ensures ReadFloat(r) == bits
  {
    [(bits & 0xFF) as Byte, ((bits >> 8) & 0xFF) as Byte,
     ((bits >> 16) & 0xFF) as Byte, ((bits >> 24) & 0xFF) as Byte]
  }

  /** Reads four little-endian bytes as a float's bits. */
  function ReadFloat(b: seq<Byte>): Float32
    requires |b| == 4
  {
    (b[0] as Float32) | ((b[1] as Float32) << 8) | ((b[2] as Float32) << 16) | ((b[3] as Float32) << 24)
  }

  /** A float vector serialised into a buffer of `4 * size` bytes. */
  function SerializeFloats(fs: seq<Float32>): (r: seq<Byte>)
    ensures |r| == 4 * |fs|
  {
    if |fs| == 0 then [] else FloatBytes(fs[0]) + SerializeFloats(fs[1..])
  }

  /** Reads a serialised float vector back, four bytes at a time. */
  function DeserializeFloats(b: seq<Byte>): seq<Float32>
    requires |b| % 4 == 0
    decreases |b|
  {
    if |b| == 0 then [] else [ReadFloat(b[..4])] + DeserializeFloats(b[4..])
  }

  lemma {:induction false} SerializeRoundTrip(fs: seq<Float32>)
    ensures DeserializeFloats(SerializeFloats(fs)) == fs
    decreases |fs|
  {
    if |fs| > 0 {
      var b := SerializeFloats(fs);
      assert b[..4] == FloatBytes(fs[0]);
      assert b[4..] == SerializeFloats(fs[1..]);
      SerializeRoundTrip(fs[1..]);
    }
  }

  /** A target vector the conversion accepts: a `List` of Floats, or a
      `ByteBuffer`. */
  predicate IsTarget(v: Value) {
    || (v.ListVal? && forall i | 0 <= i < |v.items| :: v.items[i].FloatVal?)
    || v.ByteBufferVal?
  }

  /** The placeholder kind a target vector sets. */
  function KindOf(v: Value): PlaceholderType {
    if v.ListVal? then FloatPlaceholder else BinaryPlaceholder
  }

  /** `bytes` is what the service reads back as the target vector `v`: the
      floats in order for a list, the whole backing array for a buffer. */
  ghost predicate Carries(v: Value, bytes: seq<Byte>) {
    if v.ListVal? then
      |bytes| % 4 == 0 && FloatValues(DeserializeFloats(bytes)) == v.items
    else v.ByteBufferVal? && bytes == v.buffer.backing
  }

  /** One pass of the target-vector loop. */
  function EncodeTarget(v: Value): (r: Result<(PlaceholderType, seq<Byte>), Error>)
    ensures r.Success? <==> IsTarget(v)
    ensures r.Success? ==> r.value.0 == KindOf(v) && Carries(v, r.value.1)
    ensures !v.ListVal? && !v.ByteBufferVal? ==> r == Failure(ParamException(ILLEGAL_VECTOR_MESSAGE))
    ensures v.ListVal? && !IsTarget(v) ==> r == Failure(BadElement)
  {
    match v
    case ListVal(items) =>
      var fs :- CastAll(items, AsFloat).ToResult(BadElement);
      SerializeRoundTrip(fs);
      assert FloatValues(fs) == items;
      Success((FloatPlaceholder, SerializeFloats(fs)))
    case ByteBufferVal(buf) => Success((BinaryPlaceholder, buf.backing))
    case _ => Failure(ParamException(ILLEGAL_VECTOR_MESSAGE))
  }

  /** The target-vector loop from the current kind `kind` and the values
      serialised so far: every vector is serialised in order, and the kind
      is the one the last vector set. */
  function EncodeTargets(vectors: seq<Value>, kind: PlaceholderType, done: seq<seq<Byte>>)
    : (r: Result<(PlaceholderType, seq<seq<Byte>>), Error>)
    ensures r.Success? <==> forall i | 0 <= i < |vectors| :: IsTarget(vectors[i])
    ensures r.Success? ==> r.value.0 == (if |vectors| == 0 then kind else KindOf(vectors[|vectors| - 1]))
    ensures r.Success? ==> |r.value.1| == |done| + |vectors| && r.value.1[..|done|] == done
    ensures r.Success? ==> forall i | 0 <= i < |vectors| :: Carries(vectors[i], r.value.1[|done| + i])
    decreases |vectors|
  {
    if |vectors| == 0 then Success((kind, done))
    else
      var encoded :- EncodeTarget(vectors[0]);
      var r := EncodeTargets(vectors[1..], encoded.0, done + [encoded.1]);
      assert r.Success? ==> r.value.1[..|done| + 1][..|done|] == r.value.1[..|done|];
      r
  }

  /** The key/value search parameters in their fixed order, `params` last
      and only when it is non-null and non-empty. */
  function SearchParams(param: SearchParam): (r: seq<KeyValuePair>)
    ensures KeysOfPairs(r) == [VECTOR_FIELD, TOP_K, METRIC_TYPE, ROUND_DECIMAL] +
      (if param.params.Some? && param.params.value != "" then [PARAMS] else [])
    ensures r[0].value == param.vectorFieldName && r[2].value == param.metricType
    ensures ParseDecimal(r[1].value) == Some(param.topK)
    ensures ParseDecimal(r[3].value) == Some(param.roundDecimal)
    ensures r[1].value == DecimalString(param.topK) && r[3].value == DecimalString(param.roundDecimal)
    ensures |r| == 5 ==> r[4].value == param.params.value
  {
    DecimalRoundTrip(param.topK);
    DecimalRoundTrip(param.roundDecimal);
    [KeyValuePair(VECTOR_FIELD, param.vectorFieldName),
     KeyValuePair(TOP_K, DecimalString(param.topK)),
     KeyValuePair(METRIC_TYPE, param.metricType),
     KeyValuePair(ROUND_DECIMAL, DecimalString(param.roundDecimal))]
    + (if param.params.Some? && |param.params.value| != 0 then [KeyValuePair(PARAMS, param.params.value)] else [])
  }

  function KeysOfPairs(pairs: seq<KeyValuePair>): (r: seq<string>)
    ensures |r| == |pairs|
  {
    seq(|pairs|, i requires 0 <= i < |pairs| => pairs[i].key)
  }

  /** `ConvertSearchParam(requestParam)`. */
  function ConvertSearchParam(param: SearchParam): (r: Result<SearchRequest, Error>)
    ensures r.Success? <==> forall i | 0 <= i < |param.vectors| :: IsTarget(param.vectors[i])
    ensures r.Success? ==>
      && r.value.dbName == ""
      && r.value.collectionName == param.collectionName
      && r.value.partitionNames == param.partitionNames
      && r.value.outputFields == param.outFields
      && r.value.travelTimestamp == param.travelTimestamp
      && r.value.guaranteeTimestamp == param.guaranteeTimestamp
    ensures r.Success? ==> |r.value.placeholderGroup.placeholders| == 1
    ensures r.Success? ==>
      var p := r.value.placeholderGroup.placeholders[0];
      && p.tag == VECTOR_TAG
      && p.kind == (if |param.vectors| == 0 then NoPlaceholder else KindOf(param.vectors[|param.vectors| - 1]))
      && |p.values| == |param.vectors|
      && forall i | 0 <= i < |param.vectors| :: Carries(param.vectors[i], p.values[i])
    ensures r.Success? ==> r.value.searchParams == SearchParams(param)
    ensures r.Success? ==> r.value.dslType == BoolExprV1
    ensures r.Success? ==> (r.value.dsl.Some? <==> param.expr.Some? && param.expr.value != "")
    ensures r.Success? && r.value.dsl.Some? ==> r.value.dsl.value == param.expr.value
  {
    var (kind, values) :- EncodeTargets(param.vectors, NoPlaceholder, []);
    var placeholder := PlaceholderValue(VECTOR_TAG, kind, values);
    var dsl := if param.expr.Some? && |param.expr.value| != 0 then Some(param.expr.value) else Option.None;
    Success(SearchRequest(
      "", param.collectionName, param.partitionNames, PlaceholderGroup([placeholder]),
      SearchParams(param), param.outFields, BoolExprV1, dsl,
      param.travelTimestamp, param.guaranteeTimestamp))
  }

  /** The loop stops at the first vector it cannot serialise, whatever the
      kind and values gathered so far. */
  lemma {:induction false} TargetsReportFirstIllegal(vectors: seq<Value>, kind: PlaceholderType, done: seq<seq<Byte>>, k: nat)
    requires k < |vectors|
    requires forall i | 0 <= i < k :: IsTarget(vectors[i])
    requires !IsTarget(vectors[k])
    ensures EncodeTargets(vectors, kind, done) == Failure(EncodeTarget(vectors[k]).error)
    decreases k
  {
    if k > 0 {
      var encoded := EncodeTarget(vectors[0]).value;
      TargetsReportFirstIllegal(vectors[1..], encoded.0, done + [encoded.1], k - 1);
    }
  }

  /** A search fails on the first target vector that is neither a list of
      Floats nor a byte buffer: a list holding something else is a bad
      element, any other object is an illegal vector type. */
  lemma SearchReportsFirstIllegal(param: SearchParam, k: nat)
    requires k < |param.vectors|
    requires forall i | 0 <= i < k :: IsTarget(param.vectors[i])
    requires !IsTarget(param.vectors[k])
    ensures ConvertSearchParam(param) == Failure(
      if param.vectors[k].ListVal? then BadElement else ParamException(ILLEGAL_VECTOR_MESSAGE))
  {
    TargetsReportFirstIllegal(param.vectors, NoPlaceholder, [], k);
  }

  /** Float and binary targets may be mixed: the placeholder is tagged with
      the kind of the last one. */
  lemma MixedTargetsTakeLastKind(param: SearchParam)
    requires param.vectors == [ListVal([FloatVal(0)]), ByteBufferVal(HeapBuffer([7], 1))]
    ensures ConvertSearchParam(param).Success?
    ensures ConvertSearchParam(param).value.placeholderGroup.placeholders[0].kind == BinaryPlaceholder
  {
    assert IsTarget(param.vectors[0]) && IsTarget(param.vectors[1]);
  }
}

=== FILE: seqs.dfy ===
/** Row-major layout of a list of rows: concatenation, and cutting a flat
    sequence back into rows of a fixed width. */
module Seqs {

  /** The rows laid end to end, in order. */
  function Concat<T>(xss: seq<seq<T>>): (r: seq<T>)
    decreases |xss|
  {
    if |xss| == 0 then [] else xss[0] + Concat(xss[1..])
  }

  /** Every row has length `d`. */
  ghost predicate Uniform<T>(xss: seq<seq<T>>, d: nat) {
    forall i | 0 <= i < |xss| :: |xss[i]| == d
  }

  /** `s` cut into consecutive rows of length `d`, the last one possibly
      shorter. */
  function Chunk<T>(s: seq<T>, d: nat): seq<seq<T>>
    requires 0 < d
    decreases |s|
  {
    if |s| == 0 then []
    else if |s| <= d then [s]
    else [s[..d]] + Chunk(s[d..], d)
  }

  lemma {:induction false} ConcatLength<T>(xss: seq<seq<T>>, d: nat)
    requires Uniform(xss, d)
    ensures |Concat(xss)| == |xss| * d
    decreases |xss|
  {
    if |xss| > 0 {
      ConcatLength(xss[1..], d);
    }
  }

  /** Element `j` of row `i` sits at `i * d + j` of the concatenation. */
  lemma {:induction false} ConcatIndex<T>(xss: seq<seq<T>>, d: nat, i: nat, j: nat)
    requires Uniform(xss, d)
    requires i < |xss| && j < d
    ensures i * d + j < |Concat(xss)|
    ensures Concat(xss)[i * d + j] == xss[i][j]
    decreases i
  {
    ConcatLength(xss, d);
    if i > 0 {
      ConcatIndex(xss[1..], d, i - 1, j);
      assert i * d + j == d + ((i - 1) * d + j);
    }
  }

  /** Cutting the concatenation of rows of width `d` gives the rows back. */
  lemma {:induction false} ChunkConcat<T>(xss: seq<seq<T>>, d: nat)
    requires 0 < d && Uniform(xss, d)
    ensures Chunk(Concat(xss), d) == xss
    decreases |xss|
  {
    if |xss| > 0 {
      var c := Concat(xss);
      assert c == xss[0] + Concat(xss[1..]);
      if |xss| == 1 {
        assert Concat(xss[1..]) == [];
        assert c == xss[0];
        assert [xss[0]] == xss;
      } else {
        assert |Concat(xss[1..])| >= |xss[1]|;
        assert c[..d] == xss[0];
        assert c[d..] == Concat(xss[1..]);
        ChunkConcat(xss[1..], d);
      }
    }
  }

  /** Something is in the concatenation exactly when it is in some row. */
  lemma {:induction false} ConcatMember<T>(xss: seq<seq<T>>, x: T)
    ensures x in Concat(xss) <==> exists i | 0 <= i < |xss| :: x in xss[i]
    decreases |xss|
  {
    if |xss| > 0 {
      ConcatMember(xss[1..], x);
      if x in Concat(xss[1..]) {
        var i :| 0 <= i < |xss[1..]| && x in xss[1..][i];
        assert x in xss[i + 1];
      }
      if exists i | 0 <= i < |xss| :: x in xss[i] {
        var i :| 0 <= i < |xss| && x in xss[i];
        if i > 0 {
          assert x in xss[1..][i - 1];
        }
      }
    }
  }

  lemma MulAtLeast(n: nat, k: int)
    requires 1 <= k
    ensures n <= n * k
  {
  }

  /** The dimension of `n` rows of width `d` read back from their total. */
  lemma QuotientOfProduct(n: nat, d: nat)
    requires 0 < n
    ensures (n * d) / n == d
  {
    var q := (n * d) / n;
    var m := (n * d) % n;
    assert n * d == n * q + m;
    assert 0 <= m < n;
    assert n * (d - q) == m;
    if d - q >= 1 {
      MulAtLeast(n, d - q);
    } else if q - d >= 1 {
      MulAtLeast(n, q - d);
    }
  }

  /** `k` zero bytes. */
  function Zeros(k: nat): (r: seq<bv8>)
    ensures |r| == k
    ensures forall i | 0 <= i < k :: r[i] == 0
  {
    seq(k, _ => 0)
  }
}

=== FILE: string_check.dfy ===
/** `ParamUtils.CheckNullEmptyString`: the blank-string guard every builder
    runs on its required names. */
module StringCheck {
  import opened Wrappers
  import opened JavaRuntime

  /** The message the guard throws for the string described by `name`. */
  function NullEmptyMessage(name: string): string {
    name + " cannot be null or empty"
  }

  /** Passes a string that is non-null and holds a non-whitespace character;
      fails on null, on "" and on whitespace-only text, naming the string in
      the message. */
  function CheckNullEmptyString(target: Option<string>, name: string): (r: Outcome<Error>)
    ensures r.Fail? <==> target.None? || AllWhitespace(target.value)
    ensures r.Fail? ==> r.error == ParamException(name + " cannot be null or empty")
  {
    if target.None? || IsBlank(target.value) then Fail(ParamException(NullEmptyMessage(name)))
    else Pass
  }

  /** Whitespace the guard rejects includes tabs, line breaks and the
      ideographic space, while the non-breaking space is accepted as text. */
  lemma BlankExamples()
    ensures CheckNullEmptyString(Some(" \t\n\U{3000}"), "x").Fail?
    ensures CheckNullEmptyString(Some("\U{A0}"), "x") == Pass
    ensures CheckNullEmptyString(Some(" a "), "x") == Pass
  {
    assert !IsWhitespace("\U{A0}"[0]);
    assert !IsWhitespace(" a "[1]);
  }
}

=== FILE: wrappers.dfy ===
/** Failure-compatible wrappers: a nullable value, a value-or-error result,
    and a pass-or-error outcome for operations that return nothing. */
module Wrappers {

  /** A Java reference that may be null: `None` is null. */
  datatype Option<+T> = None | Some(value: T) {
    predicate IsFailure() {
      None?
    }

    function PropagateFailure<U>(): Option<U>
      requires None?
    {
      None
    }

    function Extract(): T
      requires Some?
    {
      value
    }

    function ToResult<E>(error: E): Result<T, E> {
      match this
      case Some(v) => Success(v)
      case None => Failure(error)
    }
  }

  /** Either the value an operation returns or the exception it throws. */
  datatype Result<+R, +E> = Success(value: R) | Failure(error: E) {
    predicate IsFailure() {
      Failure?
    }

    function PropagateFailure<U>(): Result<U, E>
      requires Failure?
    {
      Failure(error)
    }

    function Extract(): R
      requires Success?
    {
      value
    }
  }

  /** The outcome of a `void` operation that may throw. */
  datatype Outcome<+E> = Pass | Fail(error: E)
}
